=== FILE: README.md ===
# Target availability control of openwms.org common services, in Dafny

This project models the part of the openwms.org common service that locks
and unlocks warehouse *targets*, together with the value types and
bookkeeping around it:

- **Target lock control** (`TargetControl`, `target_controller.dfy`). A
  business key names either a Location, when it parses as a location key,
  or a LocationGroup by name. `ChangeState` applies the
  (LockType, LockMode) matrix: ALLOCATION_LOCK sets a Location's lock code
  or a group's in/out states, and OPERATION_LOCK sets a group's operation
  mode. `Lock` and `Release` force a target fully closed or fully open
  and publish one PERMANENT_LOCK event each. The store is an immutable
  value: Locations by key, the group arena, and the list of published
  events.
- **Group-state cascade** (`GroupTree`, `location_group_tree.dfy`). The
  LocationGroup hierarchy is an arena keyed by group name.
  - `Descendants` computes the set of every group below a group with a
    visited-set traversal, proved equal to "reachable by a parent→child
    path".
  - `ChangeGroupState` copies the root's states to every descendant and
    leaves the tree shape and all other groups alone.
  - `ChangeOperationMode` does the same for the operation mode.
- **Error-code decoding** (`GroupStateOut`, `group_state_transformer.dfy`).
  `Available` is the baseline positional decoder. `Decode` runs an
  ordered chain of decoders in which the first definite answer wins.
- **Location natural key** (`LocationKey`, `location_pk.dfy`).
  - Both constructors, the key-count check, and the equality.
  - The hash: the XOR of the five components' `String.hashCode`. UTF-16
    code units are taken explicitly, and each hash wraps to 32 bits. The
    XOR works on the 32-bit pattern (`Word`, lowest bit first).
  - The `{area/aisle/x/y/z}` rendering.
- **TransportUnit tree** (`TransportUnits`, `transport_unit.dfy`). Units
  live in an arena keyed by barcode. It models `addChild`, `removeChild`
  and `addError`, a new unit's initial values, and barcode equality.
- **Unit column converter** (`UnitUserType`, `unit_user_type.dfy`). A Piece
  or a Weight is stored as the tag column `unitType@className` plus a
  magnitude column. The JDBC statement and result set become a
  two-column value.

`wrappers.dfy` holds `Option` and `Result`; `strings.dfy` holds the
character split (with Java's trailing-empty-segment rule) shared by the
rendering and the tag decoder, and the UTF-16 encoding by which Java
counts and indexes string positions; `location_api.dfy` holds the enumerations of
the location API and what their constants mean in terms of the infeed and
outfeed directions.

Two behaviours of the code worth stating outright:

- `changeState` publishes no event. Only `lock` and `release` call
  `raiseEvent` (TargetController.java:218, 229, 251 and 262); the
  `changeState` body (TargetController.java:84-127) has no such call.
- For the status code `X10*0`, the character at `length() - 2` is `*`, so
  the baseline decoder returns an empty answer rather than AVAILABLE
  (DefaultGroupStateOutTransformer.java:41-42,
  `GroupStateOut.SuppressedExample`). Positions count UTF-16 code units,
  as `String.length` and `String.charAt` do.

## Model

| member | source | states |
|---|---|---|
| TargetControl.LocationLockCode | src/main/java/org/openwms/common/location/TargetController.java:133-150 | The lock code chosen for a Location locks infeed exactly when the mode blocks infeed, and locks outfeed exactly when the mode blocks outfeed. |
| TargetControl.GroupLockStates | src/main/java/org/openwms/common/location/TargetController.java:152-169 | A group's stateIn is NOT_AVAILABLE exactly when the mode blocks infeed; likewise stateOut for outfeed. |
| TargetControl.GroupOperationMode | src/main/java/org/openwms/common/location/TargetController.java:171-188 | The operation mode left to a group allows infeed exactly when the mode does not block it; likewise for outfeed. |
| TargetControl.LockCodeDeterminedByDirections | src/main/java/org/openwms/common/location/TargetController.java:133-150 | Any lock code with the same blocked directions as the mode is the table's code, so the table is the unique direction-respecting one. |
| TargetControl.OperationModeDeterminedByDirections | src/main/java/org/openwms/common/location/TargetController.java:171-188 | Any operation mode with the same open directions as the mode is the table's mode. |
| TargetControl.TablesAreInjective | src/main/java/org/openwms/common/location/TargetController.java:133-188 | Distinct lock modes give distinct Location codes, group state pairs and group operation modes. |
| TargetControl.AllocateGroup | src/main/java/org/openwms/common/location/TargetController.java:106-112 | ALLOCATION_LOCK on a group rewrites the group and every descendant to the mode's states. It keeps their operation modes, the links, all other groups and all Locations. |
| TargetControl.OperateGroup | src/main/java/org/openwms/common/location/TargetController.java:113-119 | OPERATION_LOCK on a group gives the group and every descendant the mode that leaves open exactly the unblocked directions. States and everything else are untouched. |
| TargetControl.ForceGroup | src/main/java/org/openwms/common/location/TargetController.java:226-228 | Forcing a group sets both states and the operation mode of the group and of every descendant, and changes nothing else. |
| TargetControl.ChangeState | src/main/java/org/openwms/common/location/TargetController.java:84-127 | Result of changeState: <br>- an unresolved key fails NotFound (LOCATION_ID_INVALID for a location key, TARGET_NOT_SUPPORTED otherwise);<br>- PERMANENT_LOCK fails LOCK_TYPE_UNSUPPORTED;<br>- OPERATION_LOCK on a Location fails as unsupported;<br>- it succeeds exactly otherwise, publishes nothing, and changes only the target (and, for a group, its subtree) per the tables. |
| TargetControl.PermanentLockEvent | src/main/java/org/openwms/common/location/TargetController.java:269-279 | Every raised event is a PERMANENT_LOCK event for the given key, carrying the given mode as its operation mode and the given re-allocation flag. |
| TargetControl.Lock | src/main/java/org/openwms/common/location/TargetController.java:208-234 | lock: <br>- succeeds exactly when the key resolves, otherwise fails NotFound;<br>- appends one event (PERMANENT_LOCK, NONE, reAllocation forwarded);<br>- sets a Location to LOCK_STATE_IN_AND_OUT, or forces a group subtree to NOT_AVAILABLE/NO_OPERATION. |
| TargetControl.Release | src/main/java/org/openwms/common/location/TargetController.java:243-267 | release: <br>- succeeds exactly when the key resolves, otherwise fails NotFound;<br>- appends one event (PERMANENT_LOCK, IN_AND_OUT, no reAllocation);<br>- sets a Location to UNLOCK_STATE_IN_AND_OUT, or forces a group subtree to AVAILABLE/INFEED_AND_OUTFEED. |
| TargetControl.ForceGroupTwice | src/main/java/org/openwms/common/location/TargetController.java:226-228 | A second force over the same subtree overwrites the first completely. |
| TargetControl.LockThenReleaseIsRelease | src/main/java/org/openwms/common/location/TargetController.java:208-267 | release after lock gives the same store as release alone, with both events in order; the prior lock leaves no trace. |
| TargetControl.LockThenReleaseOpensFully | src/main/java/org/openwms/common/location/TargetController.java:243-267 | After lock then release, the target is fully open whatever its state before. |
| TargetControl.LockIdempotent | src/main/java/org/openwms/common/location/TargetController.java:208-234 | Locking twice gives the store of locking once, plus a second identical event. |
| TargetControl.LocationKeyIgnoresGroups | src/main/java/org/openwms/common/location/TargetController.java:84-102 | For a key accepted as a location key, the group arena neither decides nor is changed by changeState, lock or release. |
| GroupTree.Descendants | src/main/java/org/openwms/common/location/LocationGroupService.java:40-42 | The traversal returns exactly the groups reachable from the root by a parent-to-child path of one or more steps (children recursively, not only direct children). |
| GroupTree.DescendantSameShape | src/main/java/org/openwms/common/location/LocationGroupService.java:40-42 | Two arenas with the same keys, parents and children have the same descendants, so rewriting states never changes who is below whom. |
| GroupTree.PropagateGroupState | src/main/java/org/openwms/common/location/LocationGroupService.java:40-46 | Every descendant takes the root's stateIn and stateOut; the root itself, the tree shape, all modes and all other groups are unchanged. |
| GroupTree.ChangeGroupState | src/main/java/org/openwms/common/location/LocationGroupService.java:40-46 | The root and each of its descendants end with the given in/out states. The tree shape, the modes and every group outside the subtree are unchanged. |
| GroupTree.ChangeOperationMode | src/main/java/org/openwms/common/location/TargetController.java:113-119 | The root and each of its descendants end with the given operation mode; states, shape and every group outside the subtree are unchanged. |
| GroupStateOut.Available | src/main/java/org/openwms/common/location/spi/DefaultGroupStateOutTransformer.java:39-46 | Result of available, with positions counted in UTF-16 code units: <br>- a code without text fails IllegalArgument;<br>- a code of one code unit has text but fails on index -1;<br>- it succeeds exactly for codes of two or more code units with text;<br>- then the result is empty exactly when the unit two before the end is '*' (42), and AVAILABLE exactly when it is '0' (48). |
| GroupStateOut.AvailableDependsOnlyOnMarker | src/main/java/org/openwms/common/location/spi/DefaultGroupStateOutTransformer.java:41-45 | Two valid codes with the same code unit two before the end decode the same. |
| GroupStateOut.AnyOtherMarkerIsNotAvailable | src/main/java/org/openwms/common/location/spi/DefaultGroupStateOutTransformer.java:45 | Any marker other than '*' and '0', be it a digit, a letter or a surrogate, decodes to NOT_AVAILABLE. |
| GroupStateOut.AvailableOnBmp | src/main/java/org/openwms/common/location/spi/DefaultGroupStateOutTransformer.java:39-46 | For a code of characters below U+10000 the marker is the character two before the end: '*' gives empty, '0' AVAILABLE, anything else NOT_AVAILABLE, and a one-character code fails on index -1. |
| GroupStateOut.TrailingSupplementaryIsNotAvailable | src/main/java/org/openwms/common/location/spi/DefaultGroupStateOutTransformer.java:41-45 | A code ending in a character from U+10000 up has that character's high surrogate two before the end, so it decodes to NOT_AVAILABLE whatever precedes it. |
| GroupStateOut.SuppressedExample | src/main/java/org/openwms/common/location/spi/DefaultGroupStateOutTransformer.java:41-42 | "X10*0" decodes to the empty answer. |
| GroupStateOut.NoErrorExample | src/main/java/org/openwms/common/location/spi/DefaultGroupStateOutTransformer.java:45 | "X1000" decodes to AVAILABLE. |
| GroupStateOut.LetterMarkerExample | src/main/java/org/openwms/common/location/spi/DefaultGroupStateOutTransformer.java:45 | "X10A0" decodes to NOT_AVAILABLE. |
| GroupStateOut.TooShortExample | src/main/java/org/openwms/common/location/spi/DefaultGroupStateOutTransformer.java:41 | "A" fails on index -1. |
| GroupStateOut.BlankExample | src/main/java/org/openwms/common/location/spi/DefaultGroupStateOutTransformer.java:40 | A blank code and a null code are both rejected with "ErrorCode must be applied". |
| GroupStateOut.SurrogateExamples | src/main/java/org/openwms/common/location/spi/DefaultGroupStateOutTransformer.java:41-45 | "*" followed by U+1F600, and U+1F600 alone, both decode to NOT_AVAILABLE: the unit two before the end is the high surrogate 0xD83D. |
| GroupStateOut.DefaultDecoder | src/main/java/org/openwms/common/location/spi/DefaultGroupStateOutTransformer.java:31-33 | The baseline decoder has precedence 5 and decodes with available. |
| GroupStateOut.Decode | src/main/java/org/openwms/common/location/spi/DefaultGroupStateOutTransformer.java:31 | The chain answers empty exactly when every decoder does; otherwise its answer is some decoder's answer, and every earlier decoder had no opinion. |
| GroupStateOut.FirstAnswerWins | src/main/java/org/openwms/common/location/spi/DefaultGroupStateOutTransformer.java:31 | The chain's answer is the answer of the first decoder with an opinion. |
| GroupStateOut.LaterDecodersIgnored | src/main/java/org/openwms/common/location/spi/DefaultGroupStateOutTransformer.java:31 | Decoders after a definite answer cannot change it. |
| GroupStateOut.SilentDecodersTransparent | src/main/java/org/openwms/common/location/spi/DefaultGroupStateOutTransformer.java:31 | A prefix of decoders without opinion can be dropped without changing the answer. |
| GroupStateOut.DefaultDecoderPrecedence | src/main/java/org/openwms/common/location/spi/DefaultGroupStateOutTransformer.java:31-33 | In an ascending chain, every decoder before the baseline one has precedence at most 5. The baseline decoder's answer is the chain's exactly when all of them had no opinion; otherwise their answer stands. |
| GroupStateOut.BaselineChainExample | src/main/java/org/openwms/common/location/spi/DefaultGroupStateOutTransformer.java:41-45 | A chain of the baseline decoder alone leaves "X10*0" unclassified and classifies "X1000" AVAILABLE. |
| LocationKey.Create | src/main/java/org/openwms/common/LocationPK.java:101-107 | The five-argument constructor stores area, aisle, x, y, z in that order. |
| LocationKey.FromKeys | src/main/java/org/openwms/common/LocationPK.java:117-127 | Result of the varargs constructor: <br>- a null array fails with a null dereference;<br>- any count other than 5 fails, reporting the count;<br>- five keys give a key whose components are exactly those keys in order. |
| LocationKey.ConstructorsAgree | src/main/java/org/openwms/common/LocationPK.java:101-127 | Both constructors build the same key from the same five strings. |
| LocationKey.ConstructorsIgnoreKeyLength | src/main/java/org/openwms/common/LocationPK.java:49-51 | A component longer than KEY_LENGTH is accepted and kept; the limit is not enforced on construction. |
| LocationKey.NumberOfKeys | src/main/java/org/openwms/common/LocationPK.java:134-136 | The number of keys is the number of components of every key. |
| LocationKey.KeyLength | src/main/java/org/openwms/common/LocationPK.java:144-146 | The key length is NUMBER_OF_KEYS times KEY_LENGTH, which is 20. |
| LocationKey.Equals | src/main/java/org/openwms/common/LocationPK.java:199-209 | Two keys are equal exactly when all five components are equal; nothing else is equal to a key. |
| LocationKey.HashCode | src/main/java/org/openwms/common/LocationPK.java:217-219 | The hash is the bitwise XOR of the 32-bit patterns of the five component hashes, in component order. Each component hash is `String.hashCode` over UTF-16 code units, wrapped to 32 bits. |
| LocationKey.HashConsistentWithEquals | src/main/java/org/openwms/common/LocationPK.java:199-219 | Equal keys have equal hashes. |
| LocationKey.PermutedKeysCollide | src/main/java/org/openwms/common/LocationPK.java:217-219 | Keys whose components are a permutation of each other have the same hash. |
| LocationKey.DistinctKeysCollide | src/main/java/org/openwms/common/LocationPK.java:217-219 | A concrete pair of different keys with the same hash: {A/B/C/D/E} and {E/D/C/B/A}. |
| LocationKey.Render | src/main/java/org/openwms/common/LocationPK.java:228-230 | The rendering is "{", the five components joined by "/", then "}". |
| LocationKey.RenderRoundTrip | src/main/java/org/openwms/common/LocationPK.java:228-230 | For components without '/', the rendering parses back to the same key. |
| LocationKey.RenderInjective | src/main/java/org/openwms/common/LocationPK.java:228-230 | Keys without '/' in their components with the same rendering are the same key. |
| TransportUnits.NewTransportUnit | src/main/java/org/openwms/common/transport/TransportUnit.java:148-224 | A new unit carries its identifier as barcode, is AVAILABLE, and has no parent, no children and no errors. |
| TransportUnits.UnitEquals | src/main/java/org/openwms/common/transport/TransportUnit.java:614-633 | Two units are equal exactly when their barcodes are equal, two absent barcodes included; nothing equals null. |
| TransportUnits.UnitEqualsIsEquivalence | src/main/java/org/openwms/common/transport/TransportUnit.java:614-633 | Unit equality is reflexive, symmetric and transitive. |
| TransportUnits.UnitEqualsIgnoresContents | src/main/java/org/openwms/common/transport/TransportUnit.java:614-633 | State, parent, children and errors play no part in equality. |
| TransportUnits.EqualsIsIdentity | src/main/java/org/openwms/common/transport/TransportUnit.java:614-633 | In a store where each unit carries the barcode it is stored under, equality of stored units is identity. |
| TransportUnits.NoTransportUnits | src/main/java/org/openwms/common/transport/TransportUnit.java:346-348 | The count is zero exactly when the unit carries no children; `AddThenRemoveRestores` shows it one higher after adding a unit and back after removing it. |
| TransportUnits.AddError | src/main/java/org/openwms/common/transport/TransportUnit.java:424-429 | A null error is refused. Otherwise the error is recorded at the current instant and every other entry is kept. The error previously recorded at that instant, if any, is returned. |
| TransportUnits.SameInstantErrorsOverwrite | src/main/java/org/openwms/common/transport/TransportUnit.java:424-429 | Two errors added at the same instant keep only the second, and the second call returns the first. |
| TransportUnits.AddChildAsWritten | src/main/java/org/openwms/common/transport/TransportUnit.java:524-542 | addChild as written: <br>- a null child is refused;<br>- a child already under this unit changes nothing;<br>- a non-null child always succeeds;<br>- otherwise the child's parent becomes this unit and this unit lists the child;<br>- a former parent loses this unit, not the child, from its children;<br>- every other unit and every other field is unchanged. |
| TransportUnits.AddChildAsWrittenLeavesStaleChild | src/main/java/org/openwms/common/transport/TransportUnit.java:533-536 | Moving C from P to Q as written leaves C in P's children while C's parent is Q, breaking the parent/child agreement. |
| TransportUnits.AddChild | src/main/java/org/openwms/common/transport/TransportUnit.java:524-542 | Corrected addChild: <br>- null is refused;<br>- a child already under this unit changes nothing;<br>- otherwise the child moves here and leaves its former parent's children, this unit lists it, and no other link or field of any unit changes, whether or not the tree was consistent;<br>- a consistent, well-formed tree stays so. |
| TransportUnits.RemoveChild | src/main/java/org/openwms/common/transport/TransportUnit.java:552-564 | removeChild: <br>- null is refused;<br>- it succeeds exactly for a child of this unit, which loses its parent and leaves this unit's children;<br>- any other unit is refused as not associated;<br>- no other link or field of any unit changes, this unit's own parent and the child's children included;<br>- consistency is kept. |
| TransportUnits.AddThenRemoveRestores | src/main/java/org/openwms/common/transport/TransportUnit.java:524-564 | Adding a unit without parent and removing it again restores the store exactly; in between the count of carried units is one higher. |
| TransportUnits.RemoveFromWrongParentFails | src/main/java/org/openwms/common/transport/TransportUnit.java:557-563 | A child of one unit cannot be removed through another. |
| UnitUserType.NullSafeSet | src/main/java/org/openwms/common/units/UnitUserType.java:162-187 | Result of nullSafeSet: <br>- null writes two SQL NULLs;<br>- a Piece or a Weight writes `unitType@className` and its magnitude;<br>- any other class fails with a type mismatch naming it. |
| UnitUserType.GetInt | src/main/java/org/openwms/common/units/UnitUserType.java:147 | Reading the Piece magnitude as a Java int gives 0 for SQL NULL, and otherwise succeeds exactly for integral values from -2147483648 to 2147483647, returning the value; any other value fails with a conversion failure naming it. |
| UnitUserType.NullSafeGet | src/main/java/org/openwms/common/units/UnitUserType.java:138-154 | Result of nullSafeGet: <br>- a NULL tag reads as null;<br>- a tag that splits into fewer than two parts fails on the missing index;<br>- an unknown class fails with a type mismatch naming it;<br>- for a Piece, a magnitude getInt cannot convert (fractional, or outside the Java int range) fails first, then an unknown unit name fails NoSuchConstant;<br>- for a Weight, an unknown unit name fails NoSuchConstant, then a NULL magnitude fails;<br>- it succeeds exactly when none of these applies;<br>- a result is a Piece or a Weight whose unit name and class are the first two parts of the tag; a Piece's amount is the getInt value (0 for NULL), a Weight's the magnitude. |
| UnitUserType.RoundTrip | src/main/java/org/openwms/common/units/UnitUserType.java:138-187 | Reading what was written gives back the same measure, for null, for a Weight, and for a Piece whose amount a Java int holds, when the unit name has no '@' and names a constant. |
| UnitUserType.FractionalPieceDoesNotRoundTrip | src/main/java/org/openwms/common/units/UnitUserType.java:147-170 | A Piece with a fractional amount is written but fails on reading. |
| UnitUserType.OutOfRangePieceDoesNotRoundTrip | src/main/java/org/openwms/common/units/UnitUserType.java:147-170 | A Piece with a whole amount outside the Java int range is written but fails on reading with a conversion failure. |
| UnitUserType.LargePieceExample | src/main/java/org/openwms/common/units/UnitUserType.java:147 | 3000000000 pieces are written but fail on reading. |
| UnitUserType.SeparatorInUnitNameBreaksTag | src/main/java/org/openwms/common/units/UnitUserType.java:143-145 | A Piece or Weight whose unit name is `head@tail` is written. On reading, the tag is cut at both separators and `tail` is taken for the class name. Unless `tail` is itself a class name, reading fails with a type mismatch naming `tail`. |
| UnitUserType.ForeignTagRefused | src/main/java/org/openwms/common/units/UnitUserType.java:146-185 | A class other than Piece or Weight is refused with a type mismatch both on reading and on writing. |
| UnitUserType.GetPropertyValue | src/main/java/org/openwms/common/units/UnitUserType.java:71-80 | For a Piece or a Weight, property 0 is the unit name and every other index the magnitude; null fails on the dereference; other classes fail with the type mismatch "Incompatible type [class <binary name>]". |
| UnitUserType.ColumnsAreProperties | src/main/java/org/openwms/common/units/UnitUserType.java:167-178 | The tag column is property 0 followed by '@' and the class name, and the magnitude column is property 1. |
| UnitUserType.SetPropertyValue | src/main/java/org/openwms/common/units/UnitUserType.java:88-90 | Every property write is refused because the types are immutable. |
| UnitUserType.Equals | src/main/java/org/openwms/common/units/UnitUserType.java:108-116 | Identical values are equal, null equals only null, and otherwise the measures' own equality decides. |
| UnitUserType.EqualsIsEquivalence | src/main/java/org/openwms/common/units/UnitUserType.java:108-116 | When the measures' equality is an equivalence, so is the converter's, and on two values it coincides with the measures' equality. |

## Left out

- The HTTP mapping and parameter binding of the controller, and the
  message translator. Errors carry their message key and the offending
  value only.
- `TargetControl.ChangeState`: `LocationService.changeState` is not part of
  this model. A Location is reduced to the last ErrorCodeVO written to it:
  a write replaces the stored code rather than combining its infeed and
  outfeed halves with the previous state.
- `LocationPK.isValid` is not part of this model. It is the parameter
  `isLocationKey`, so every result holds for any key syntax.
- The Location and LocationGroup lookups are map membership. The
  persistence layer, JPA mapping, versioning and optimistic locking are
  not modelled.
- `LocationGroupService.changeOperationMode` and the implementation of
  `changeGroupState` are not part of this model. Both are modelled as
  cascading to every descendant: the interface documents this for the
  states, and the mode is assumed to cascade the same way.
- `GroupTree.ChangeGroupState`: a cycle in the group links is not excluded.
  Descendants are whatever a parent→child path reaches, so a group on a
  cycle through the root is its own descendant.
- Transactions and concurrency: each operation is one atomic step on an
  immutable store.
- The LockMode `default` branches (LOCK_MODE_UNSUPPORTED) cannot be reached
  with the four modes and are not modelled.
- The decoder chain: the code that collects the transformers and consumes
  their answers is not part of this model. `Decode` runs the decoders in
  ascending `@Order` precedence (5 for the baseline one,
  DefaultGroupStateOutTransformer.java:31); the first definite answer wins
  and a failure aborts the chain.
- Java strings holding an unpaired surrogate are not modelled: a Dafny
  string is a sequence of Unicode scalar values, so the codes given to
  `GroupStateOut.Available` and the components hashed by
  `LocationKey.HashCode` are always well-formed UTF-16.
- `GroupStateOut.IsWhitespace` follows `Character.isWhitespace`.
  U+180E counts as non-whitespace, as in current Unicode versions.
- `LocationKey.Equals` assumes non-null components; the no-argument
  persistence constructor is not modelled.
- `TransportUnits.NewTransportUnit`: `Barcode` is not part of this model.
  A barcode is its string value, with no adjustment or padding.
- `TransportUnits.AddError`: the clock is the parameter `now`, in
  milliseconds. The remaining TransportUnit fields (dates, weight,
  locations, type, inventory user) are not modelled.
- `TransportUnits.NewTransportUnit`: TransportUnitState is not part of
  this model beyond its initial constant AVAILABLE.
- TransportUnit `hashCode` depends on the superclass hash, which is not
  shown, and is not modelled.
- `UnitUserType.GetInt`: a magnitude outside the Java int range fails as a
  conversion failure. Which exception the JDBC driver raises for it is
  not modelled.
- `UnitUserType.NullSafeGet`: magnitudes are exact rationals, and the
  decimal text written by `toPlainString` is taken to read back as the
  same value. BigDecimal scale and precision are not modelled.
- `UnitUserType.NullSafeGet`: the PieceUnit and WeightUnit enumerations
  are the parameter `UnitCatalog`.
- `UnitUserType.NullSafeGet`: a Weight read from a NULL magnitude fails
  (`NullAmount`). The Weight constructor is not part of this model.
- `UnitUserType.GetPropertyValue` and `UnitUserType.NullSafeSet`: a
  foreign class is given by its canonical and binary names as strings. An
  anonymous or local class, whose canonical name is null, is not modelled.
- `UnitUserType`: `hashCode`, `deepCopy`, `disassemble`, `assemble` and
  `replace` return their argument or delegate, and are not modelled.

## Findings

| source | as written | input that shows it | evidently intended | confidence | as-written member | corrected member |
|---|---|---|---|---|---|---|
| src/main/java/org/openwms/common/transport/TransportUnit.java:535 | On re-parenting, the former parent's children lose `this` (the new parent) instead of the child. | Units P and Q, with C a child of P; call `Q.addChild(C)`. C's parent becomes Q, but C stays in P's children. | The former parent lets go of the child, so that c is among p's children exactly when c's parent is p. | high, not executed | TransportUnits.AddChildAsWrittenLeavesStaleChild | TransportUnits.AddChild |

=== FILE: group_state_transformer.dfy ===
/**
 * Decoding an opaque machine status code into the outfeed availability of a
 * LocationGroup: the baseline positional decoder (precedence 5) and the
 * ordered chain of decoders it takes part in.
 */
module GroupStateOut {
  import opened Wrappers
  import opened LocationApi
  import opened Strings

  /** The failures a decoder can raise instead of answering. */
  datatype DecodeError =
    | IllegalArgument(message: string)          // Assert.hasText
    | StringIndexOutOfBounds(index: int)       // String.charAt outside the string

  type Answer = Result<Option<LocationGroupState>, DecodeError>

  const ERROR_CODE_REQUIRED: string := "ErrorCode must be applied"

  /* ------------------------------- hasText ------------------------------- */

  /** Character.isWhitespace: the Unicode space, line and paragraph separators
   *  except the non-breaking ones, plus the ASCII controls tab, line feed, vertical
   *  tab, form feed and carriage return, and the four information separators U+001C..U+001F. */
  predicate IsWhitespace(c: char) {
    || ('\U{9}' <= c <= '\U{D}')
    || ('\U{1C}' <= c <= '\U{20}')
    || c == '\U{1680}'
    || ('\U{2000}' <= c <= '\U{2006}')
    || ('\U{2008}' <= c <= '\U{200A}')
    || c == '\U{2028}' || c == '\U{2029}'
    || c == '\U{205F}' || c == '\U{3000}'
  }

  /** StringUtils.hasText: not null and holding some non-whitespace character. */
  predicate HasText(code: Option<string>) {
    code.Some? && exists i :: 0 <= i < |code.value| && !IsWhitespace(code.value[i])
  }

  lemma TextAt(s: string, i: nat)
    requires i < |s| && !IsWhitespace(s[i])
    ensures HasText(Some(s))
  {
  }

  lemma NoTextInBlank(s: string)
    requires forall i :: 0 <= i < |s| ==> IsWhitespace(s[i])
    ensures !HasText(Some(s))
  {
  }

  /* --------------------------- baseline decoder --------------------------- */

  /** The suppression marker '*': the decoder has no opinion. */
  const MARKER_NO_OPINION: int := 42
  /** A zero '0' means the group has no error. */
  const MARKER_NO_ERROR: int := 48

  /** The UTF-16 code unit two before the end of the code, where the condition
      is encoded (charAt(length() - 2), both counted in code units). */
  function Marker(s: string): int
    requires |Utf16(s)| >= 2
  {
    var u := Utf16(s);
    u[|u| - 2]
  }

  /**
   * DefaultGroupStateOutTransformer.available. A code without text is rejected;
   * a code of one UTF-16 unit has text but no position length-2, and charAt fails.
   * Whitespace is judged per character: a surrogate is never whitespace, so this
   * agrees with a test per code unit.
   */
  function Available(code: Option<string>): (r: Answer)
    ensures !HasText(code) <==> r == Failure(IllegalArgument(ERROR_CODE_REQUIRED))
    ensures r.Failure? && r.error.StringIndexOutOfBounds? <==> HasText(code) && |Utf16(code.value)| < 2
    ensures r.Failure? && r.error.StringIndexOutOfBounds? ==> r.error.index == -1
    ensures r.Success? <==> HasText(code) && |Utf16(code.value)| >= 2
    ensures r.Success? ==> (r.value.None? <==> Marker(code.value) == MARKER_NO_OPINION)
    ensures r.Success? ==> (r.value == Some(AVAILABLE) <==> Marker(code.value) == MARKER_NO_ERROR)
  {
    if !HasText(code) then Failure(IllegalArgument(ERROR_CODE_REQUIRED))
    else
      var u := Utf16(code.value);
      if |u| < 2 then Failure(StringIndexOutOfBounds(|u| - 2))
      else
        var c := u[|u| - 2];
        if c == MARKER_NO_OPINION then Success(None)
        else Success(Some(if c == MARKER_NO_ERROR then AVAILABLE else NOT_AVAILABLE))
  }

  /** Every code unit but the marker is irrelevant. */
  lemma AvailableDependsOnlyOnMarker(s: string, t: string)
    requires HasText(Some(s)) && HasText(Some(t))
    requires |Utf16(s)| >= 2 && |Utf16(t)| >= 2 && Marker(s) == Marker(t)
    ensures Available(Some(s)) == Available(Some(t))
  {
  }

  /** Any marker other than '*' and '0' -- a letter, a digit or a surrogate -- means NOT_AVAILABLE. */
  lemma AnyOtherMarkerIsNotAvailable(s: string)
    requires HasText(Some(s)) && |Utf16(s)| >= 2
    requires Marker(s) != MARKER_NO_OPINION && Marker(s) != MARKER_NO_ERROR
    ensures Available(Some(s)) == Success(Some(NOT_AVAILABLE))
  {
  }

  /** For a code of characters below U+10000 the marker is the character two
      before the end, and a one-character code fails. */
  lemma {:induction false} AvailableOnBmp(s: string)
    requires forall i :: 0 <= i < |s| ==> s[i] as int < 0x10000
    requires HasText(Some(s))
    ensures |s| < 2 ==> Available(Some(s)) == Failure(StringIndexOutOfBounds(-1))
    ensures |s| >= 2 && s[|s| - 2] == '*' ==> Available(Some(s)) == Success(None)
    ensures |s| >= 2 && s[|s| - 2] == '0' ==> Available(Some(s)) == Success(Some(AVAILABLE))
    ensures |s| >= 2 && s[|s| - 2] != '*' && s[|s| - 2] != '0' ==>
              Available(Some(s)) == Success(Some(NOT_AVAILABLE))
  {
    Utf16Bmp(s);
    if |s| >= 2 {
      assert Marker(s) == s[|s| - 2] as int;
    }
  }

  /** A code ending in a character from U+10000 up has the high surrogate of
      that character as its marker, so it is NOT_AVAILABLE whatever comes before. */
  lemma {:induction false} TrailingSupplementaryIsNotAvailable(front: string, c: char)
    requires c as int >= 0x10000
    ensures Available(Some(front + [c])) == Success(Some(NOT_AVAILABLE))
  {
    var s := front + [c];
    assert s[|front|] == c;
    assert !IsWhitespace(c);
    TextAt(s, |front|);
    Utf16Concat(front, [c]);
    assert Utf16([c]) == CodeUnits(c);
    var u := Utf16(s);
    assert u[|u| - 2] == CodeUnits(c)[0];
  }

  /** "X10*0": the character two before the end is '*', so the decoder has no opinion. */
  lemma SuppressedExample()
    ensures Available(Some("X10*0")) == Success(None)
  {
    TextAt("X10*0", 0);
    AvailableOnBmp("X10*0");
  }

  lemma NoErrorExample()
    ensures Available(Some("X1000")) == Success(Some(AVAILABLE))
  {
    TextAt("X1000", 0);
    AvailableOnBmp("X1000");
  }

  lemma LetterMarkerExample()
    ensures Available(Some("X10A0")) == Success(Some(NOT_AVAILABLE))
  {
    TextAt("X10A0", 0);
    AvailableOnBmp("X10A0");
  }

  lemma TooShortExample()
    ensures Available(Some("A")) == Failure(StringIndexOutOfBounds(-1))
  {
    TextAt("A", 0);
    AvailableOnBmp("A");
  }

  /** A blank code and a null code are both rejected by the text assertion. */
  lemma BlankExample()
    ensures Available(Some(" \t")) == Failure(IllegalArgument(ERROR_CODE_REQUIRED))
    ensures Available(None) == Failure(IllegalArgument(ERROR_CODE_REQUIRED))
  {
    NoTextInBlank(" \t");
  }

  /** A character from U+10000 up is two code units: "*" followed by one
      decodes by its high surrogate, and such a character alone has length two. */
  lemma SurrogateExamples()
    ensures Available(Some("*\U{1F600}")) == Success(Some(NOT_AVAILABLE))
    ensures Available(Some("\U{1F600}")) == Success(Some(NOT_AVAILABLE))
  {
    TrailingSupplementaryIsNotAvailable("*", '\U{1F600}');
    assert "*" + ['\U{1F600}'] == "*\U{1F600}";
    TrailingSupplementaryIsNotAvailable("", '\U{1F600}');
    assert "" + ['\U{1F600}'] == "\U{1F600}";
  }

  /* ----------------------------- decoder chain ----------------------------- */

  /** One decoder of the chain with its precedence (lower runs first). */
  datatype Decoder = Decoder(order: int, decode: Option<string> -> Answer)

  const DEFAULT_ORDER: int := 5

  function DefaultDecoder(): (d: Decoder)
    ensures d.order == DEFAULT_ORDER
    ensures forall code :: d.decode(code) == Available(code)
  {
    Decoder(DEFAULT_ORDER, Available)
  }

  /** The chain as configured: in ascending precedence. */
  predicate Ascending(chain: seq<Decoder>) {
    forall i, j :: 0 <= i < j < |chain| ==> chain[i].order <= chain[j].order
  }

  /**
   * Run the chain on a code: the first definite answer wins, a decoder
   * without opinion hands the code on, and a failing decoder aborts the chain.
   * An empty answer means nobody classified the code.
   */
  function Decode(chain: seq<Decoder>, code: Option<string>): (r: Answer)
    ensures r == Success(None) <==>
              forall i :: 0 <= i < |chain| ==> chain[i].decode(code) == Success(None)
    ensures r != Success(None) ==>
              exists i :: 0 <= i < |chain| && r == chain[i].decode(code)
                && forall j :: 0 <= j < i ==> chain[j].decode(code) == Success(None)
    decreases |chain|
  {
    if |chain| == 0 then Success(None)
    else
      var first := chain[0].decode(code);
      if first == Success(None) then
        var rest := Decode(chain[1..], code);
        assert forall i :: 1 <= i < |chain| ==> chain[i] == chain[1..][i - 1];
        rest
      else first
  }

  /** The answer of the chain is the first answer that is not "no opinion". */
  lemma {:induction false} FirstAnswerWins(chain: seq<Decoder>, code: Option<string>, i: nat)
    requires i < |chain| && chain[i].decode(code) != Success(None)
    requires forall j :: 0 <= j < i ==> chain[j].decode(code) == Success(None)
    ensures Decode(chain, code) == chain[i].decode(code)
    decreases i
  {
    if i > 0 {
      assert chain[0].decode(code) == Success(None);
      FirstAnswerWins(chain[1..], code, i - 1);
    }
  }

  /** Decoders behind a definite answer are never consulted. */
  lemma {:induction false} LaterDecodersIgnored(front: seq<Decoder>, back: seq<Decoder>, code: Option<string>)
    requires Decode(front, code) != Success(None)
    ensures Decode(front + back, code) == Decode(front, code)
  {
    var r := Decode(front, code);
    var i :| 0 <= i < |front| && r == front[i].decode(code)
               && forall j :: 0 <= j < i ==> front[j].decode(code) == Success(None);
    assert (front + back)[i] == front[i];
    assert forall j :: 0 <= j < i ==> (front + back)[j] == front[j];
    FirstAnswerWins(front + back, code, i);
  }

  /** Decoders that all have no opinion are transparent. */
  lemma {:induction false} SilentDecodersTransparent(front: seq<Decoder>, back: seq<Decoder>, code: Option<string>)
    requires Decode(front, code) == Success(None)
    ensures Decode(front + back, code) == Decode(back, code)
    decreases |front|
  {
    if |front| > 0 {
      assert (front + back)[1..] == front[1..] + back;
      assert front[0].decode(code) == Success(None);
      assert forall i :: 0 <= i < |front[1..]| ==> front[1..][i] == front[i + 1];
      assert Decode(front[1..], code) == Success(None);
      assert (front + back)[0] == front[0];
      SilentDecodersTransparent(front[1..], back, code);
    } else {
      assert front + back == back;
    }
  }

  /**
   * The baseline decoder, placed at precedence 5 in an ascending chain,
   * answers exactly when every decoder of lower precedence had no opinion;
   * otherwise the earlier answer stands.
   */
  lemma DefaultDecoderPrecedence(before: seq<Decoder>, after: seq<Decoder>, code: Option<string>)
    requires Ascending(before + [DefaultDecoder()] + after)
    ensures forall d :: d in before ==> d.order <= DEFAULT_ORDER
    ensures Decode(before, code) == Success(None) && Available(code) != Success(None) ==>
              Decode(before + [DefaultDecoder()] + after, code) == Available(code)
    ensures Decode(before, code) != Success(None) ==>
              Decode(before + [DefaultDecoder()] + after, code) == Decode(before, code)
  {
    var chain := before + [DefaultDecoder()] + after;
    forall d | d in before
      ensures d.order <= DEFAULT_ORDER
    {
      var i :| 0 <= i < |before| && before[i] == d;
      assert chain[i] == d && chain[|before|] == DefaultDecoder();
    }
    assert chain == before + ([DefaultDecoder()] + after);
    if Decode(before, code) == Success(None) {
      SilentDecodersTransparent(before, [DefaultDecoder()] + after, code);
      if Available(code) != Success(None) {
        FirstAnswerWins([DefaultDecoder()] + after, code, 0);
      }
    } else {
      LaterDecodersIgnored(before, [DefaultDecoder()] + after, code);
    }
  }

  /** With the baseline decoder alone, a suppressed code stays unclassified. */
  lemma BaselineChainExample()
    ensures Decode([DefaultDecoder()], Some("X10*0")) == Success(None)
    ensures Decode([DefaultDecoder()], Some("X1000")) == Success(Some(AVAILABLE))
  {
    SuppressedExample();
    NoErrorExample();
    FirstAnswerWins([DefaultDecoder()], Some("X1000"), 0);
  }
}

=== FILE: location_api.dfy ===
/**
 * The closed vocabulary shared by the target lock control plane: lock types and
 * modes, the Location lock codes, the LocationGroup states and operation modes,
 * and the event published after a permanent lock or release.
 */
module LocationApi {
  import opened Wrappers

  /** The axis of control a lock request addresses. */
  datatype LockType = ALLOCATION_LOCK | OPERATION_LOCK | PERMANENT_LOCK

  /** The direction(s) of flow a lock request disables. */
  datatype LockMode = IN | OUT | IN_AND_OUT | NONE

  /** The lock codes applied to a single Location. */
  datatype ErrorCodeVO = LOCK_STATE_IN | LOCK_STATE_OUT | LOCK_STATE_IN_AND_OUT | UNLOCK_STATE_IN_AND_OUT

  /** Availability of one direction of a LocationGroup. */
  datatype LocationGroupState = AVAILABLE | NOT_AVAILABLE

  /** The operation mode of a LocationGroup. */
  datatype LocationGroupMode = INFEED | OUTFEED | NO_OPERATION | INFEED_AND_OUTFEED

  /** The notification published after a permanent lock or release. */
  datatype TargetEvent = TargetEvent(
    targetBK: string,
    lockType: LockType,
    operationMode: LockMode,
    reAllocation: Option<bool>)

  /** Inbound flow is disabled by the mode, read from the constant's name. */
  predicate BlocksIn(mode: LockMode) {
    mode == IN || mode == IN_AND_OUT
  }

  /** Outbound flow is disabled by the mode, read from the constant's name. */
  predicate BlocksOut(mode: LockMode) {
    mode == OUT || mode == IN_AND_OUT
  }

  /** The lock code locks the inbound direction of a Location, read from the constant's name. */
  predicate LocksIn(code: ErrorCodeVO) {
    code == LOCK_STATE_IN || code == LOCK_STATE_IN_AND_OUT
  }

  /** The lock code locks the outbound direction of a Location, read from the constant's name. */
  predicate LocksOut(code: ErrorCodeVO) {
    code == LOCK_STATE_OUT || code == LOCK_STATE_IN_AND_OUT
  }

  /** The operation mode lets goods in, read from the constant's name. */
  predicate AllowsInfeed(m: LocationGroupMode) {
    m == INFEED || m == INFEED_AND_OUTFEED
  }

  /** The operation mode lets goods out, read from the constant's name. */
  predicate AllowsOutfeed(m: LocationGroupMode) {
    m == OUTFEED || m == INFEED_AND_OUTFEED
  }
}

=== FILE: location_group_tree.dfy ===
/**
 * The LocationGroup hierarchy as an arena of nodes addressed by group name, and the
 * cascade that copies a group's states (or operation mode) onto every descendant.
 */
module GroupTree {
  import opened Wrappers
  import opened LocationApi

  datatype LocationGroup = LocationGroup(
    parent: Option<string>,
    children: seq<string>,
    stateIn: LocationGroupState,
    stateOut: LocationGroupState,
    mode: LocationGroupMode)

  /** All groups, by name. A child name that is not a key denotes no group. */
  type Arena = map<string, LocationGroup>

  /** `p` walks from parent to child through groups of the arena. */
  ghost predicate IsPath(a: Arena, p: seq<string>) {
    && |p| >= 1
    && (forall i :: 0 <= i < |p| ==> p[i] in a)
    && (forall i :: 0 <= i < |p| - 1 ==> p[i + 1] in a[p[i]].children)
  }

  /** `d` lies below `r`: one or more child steps lead from `r` to `d`. */
  ghost predicate Descendant(a: Arena, r: string, d: string) {
    exists p :: IsPath(a, p) && |p| >= 2 && p[0] == r && p[|p| - 1] == d
  }

  /** Two arenas hold the same groups linked the same way. */
  predicate SameShape(a: Arena, b: Arena) {
    && a.Keys == b.Keys
    && forall k :: k in a ==> b[k].parent == a[k].parent && b[k].children == a[k].children
  }

  /** Visiting one more group leaves fewer groups to visit. */
  lemma VisitShrinks(keys: set<string>, visited: set<string>, x: string)
    requires x in keys && x !in visited
    ensures |keys - (visited + {x})| < |keys - visited|
  {
    assert keys - (visited + {x}) == (keys - visited) - {x};
  }

  /** Depth-first traversal with a visited set: every group reachable from the frontier. */
  function Reach(a: Arena, visited: set<string>, frontier: seq<string>): set<string>
    decreases |a.Keys - visited|, |frontier|
  {
    if frontier == [] then visited
    else
      var x := frontier[0];
      if x in visited || x !in a then Reach(a, visited, frontier[1..])
      else
        VisitShrinks(a.Keys, visited, x);
        Reach(a, visited + {x}, frontier[1..] + a[x].children)
  }

  lemma {:induction false} ReachContains(a: Arena, visited: set<string>, frontier: seq<string>)
    ensures visited <= Reach(a, visited, frontier)
    ensures forall c :: c in frontier && c in a ==> c in Reach(a, visited, frontier)
    decreases |a.Keys - visited|, |frontier|
  {
    if frontier != [] {
      var x := frontier[0];
      assert frontier == [x] + frontier[1..];
      if x in visited || x !in a {
        ReachContains(a, visited, frontier[1..]);
      } else {
        VisitShrinks(a.Keys, visited, x);
        ReachContains(a, visited + {x}, frontier[1..] + a[x].children);
      }
    }
  }

  lemma ChildIsDescendant(a: Arena, r: string, c: string)
    requires r in a && c in a && c in a[r].children
    ensures Descendant(a, r, c)
  {
    assert IsPath(a, [r, c]);
  }

  lemma DescendantOfDescendant(a: Arena, r: string, x: string, c: string)
    requires Descendant(a, r, x) && c in a && c in a[x].children
    ensures Descendant(a, r, c)
  {
    var p :| IsPath(a, p) && |p| >= 2 && p[0] == r && p[|p| - 1] == x;
    var q := p + [c];
    assert forall i :: 0 <= i < |p| ==> q[i] == p[i];
    assert IsPath(a, q);
  }

  /** Everything the traversal collects lies below `r`, given that its inputs do. */
  lemma {:induction false} ReachSound(a: Arena, r: string, visited: set<string>, frontier: seq<string>)
    requires forall v :: v in visited ==> Descendant(a, r, v)
    requires forall c :: c in frontier && c in a ==> Descendant(a, r, c)
    ensures forall v :: v in Reach(a, visited, frontier) ==> Descendant(a, r, v)
    decreases |a.Keys - visited|, |frontier|
  {
    if frontier != [] {
      var x := frontier[0];
      assert frontier == [x] + frontier[1..];
      if x in visited || x !in a {
        ReachSound(a, r, visited, frontier[1..]);
      } else {
        VisitShrinks(a.Keys, visited, x);
        forall c | c in a[x].children && c in a
          ensures Descendant(a, r, c)
        {
          DescendantOfDescendant(a, r, x, c);
        }
        ReachSound(a, r, visited + {x}, frontier[1..] + a[x].children);
      }
    }
  }

  /** Every child of a visited group is visited or still waiting in the frontier. */
  ghost predicate Covered(a: Arena, visited: set<string>, frontier: seq<string>) {
    forall v, c :: v in visited && v in a && c in a && c in a[v].children ==> c in visited || c in frontier
  }

  /** The set holds the children of each of its groups. */
  ghost predicate Closed(a: Arena, s: set<string>) {
    forall v, c :: v in s && v in a && c in a && c in a[v].children ==> c in s
  }

  lemma {:induction false} ReachClosed(a: Arena, visited: set<string>, frontier: seq<string>)
    requires Covered(a, visited, frontier)
    ensures Closed(a, Reach(a, visited, frontier))
    decreases |a.Keys - visited|, |frontier|
  {
    if frontier != [] {
      var x := frontier[0];
      if x in visited || x !in a {
        CoveredSkip(a, visited, frontier);
        ReachClosed(a, visited, frontier[1..]);
      } else {
        VisitShrinks(a.Keys, visited, x);
        CoveredVisit(a, visited, frontier);
        ReachClosed(a, visited + {x}, frontier[1..] + a[x].children);
      }
    }
  }

  /** Skipping a group already visited, or unknown, keeps the frontier covering. */
  lemma CoveredSkip(a: Arena, visited: set<string>, frontier: seq<string>)
    requires Covered(a, visited, frontier) && frontier != []
    requires frontier[0] in visited || frontier[0] !in a
    ensures Covered(a, visited, frontier[1..])
  {
    forall v, c | v in visited && v in a && c in a && c in a[v].children
      ensures c in visited || c in frontier[1..]
    {
      assert c in visited || c in frontier;
      if c !in visited && c != frontier[0] {
        assert frontier == [frontier[0]] + frontier[1..];
      }
    }
  }

  /** Visiting the first group of the frontier hands its children on to the frontier. */
  lemma CoveredVisit(a: Arena, visited: set<string>, frontier: seq<string>)
    requires Covered(a, visited, frontier) && frontier != [] && frontier[0] in a
    ensures Covered(a, visited + {frontier[0]}, frontier[1..] + a[frontier[0]].children)
  {
    var x := frontier[0];
    assert frontier == [x] + frontier[1..];
  }

  /** Every group below `r` is collected by the traversal started at `r`'s children. */
  lemma ReachComplete(a: Arena, r: string, d: string)
    requires r in a && Descendant(a, r, d)
    ensures d in Reach(a, {}, a[r].children)
  {
    var R := Reach(a, {}, a[r].children);
    ReachContains(a, {}, a[r].children);
    ReachClosed(a, {}, a[r].children);
    var p :| IsPath(a, p) && |p| >= 2 && p[0] == r && p[|p| - 1] == d;
    var i := 1;
    while i < |p| - 1
      invariant 1 <= i <= |p| - 1
      invariant p[i] in R
    {
      assert p[i + 1] in a[p[i]].children;
      i := i + 1;
    }
  }

  /** The names of all groups below `r`, children recursively. */
  function Descendants(a: Arena, r: string): (ds: set<string>)
    requires r in a
    ensures forall d :: d in ds <==> Descendant(a, r, d)
  {
    forall c | c in a[r].children && c in a ensures Descendant(a, r, c) {
      ChildIsDescendant(a, r, c);
    }
    ReachSound(a, r, {}, a[r].children);
    forall d | Descendant(a, r, d) ensures d in Reach(a, {}, a[r].children) {
      ReachComplete(a, r, d);
    }
    Reach(a, {}, a[r].children)
  }

  /** The traversal reads only keys and child links. */
  lemma {:induction false} ReachSameShape(a: Arena, b: Arena, visited: set<string>, frontier: seq<string>)
    requires SameShape(a, b)
    ensures Reach(a, visited, frontier) == Reach(b, visited, frontier)
    decreases |a.Keys - visited|, |frontier|
  {
    if frontier != [] {
      var x := frontier[0];
      if x in visited || x !in a {
        ReachSameShape(a, b, visited, frontier[1..]);
      } else {
        VisitShrinks(a.Keys, visited, x);
        ReachSameShape(a, b, visited + {x}, frontier[1..] + a[x].children);
      }
    }
  }

  /** Groups linked the same way have the same descendants. */
  lemma DescendantsSameShape(a: Arena, b: Arena, r: string)
    requires r in a && SameShape(a, b)
    ensures Descendants(a, r) == Descendants(b, r)
  {
    ReachSameShape(a, b, {}, a[r].children);
  }

  /** Groups linked the same way have the same descendants, stated through reachability. */
  lemma DescendantSameShape(a: Arena, b: Arena, r: string)
    requires r in a && SameShape(a, b)
    ensures forall d :: Descendant(a, r, d) <==> Descendant(b, r, d)
  {
    DescendantsSameShape(a, b, r);
  }

  /** `k` is `g` itself or lies below it. */
  ghost predicate InSubtree(a: Arena, g: string, k: string) {
    k == g || Descendant(a, g, k)
  }

  /**
   * changeGroupState(T): the group `g` already carries its new states; both are copied
   * onto every descendant. Nothing else changes.
   */
  function PropagateGroupState(a: Arena, g: string): (b: Arena)
    requires g in a
    ensures SameShape(a, b)
    ensures b[g] == a[g]
    ensures forall d :: d in a && Descendant(a, g, d) ==>
              b[d].stateIn == a[g].stateIn && b[d].stateOut == a[g].stateOut
    ensures forall k :: k in a && !Descendant(a, g, k) ==> b[k] == a[k]
    ensures forall k :: k in a ==> b[k].mode == a[k].mode
  {
    var ds := Descendants(a, g);
    map k | k in a :: if k in ds then a[k].(stateIn := a[g].stateIn, stateOut := a[g].stateOut) else a[k]
  }

  /** Set the states of `g` and cascade them onto every descendant. */
  function ChangeGroupState(a: Arena, g: string, stateIn: LocationGroupState, stateOut: LocationGroupState): (b: Arena)
    requires g in a
    ensures SameShape(a, b)
    ensures forall d :: d in a && (d == g || Descendant(a, g, d)) ==>
              b[d].stateIn == stateIn && b[d].stateOut == stateOut
    ensures forall k :: k in a && k != g && !Descendant(a, g, k) ==> b[k] == a[k]
    ensures forall k :: k in a ==> b[k].mode == a[k].mode
  {
    var a' := a[g := a[g].(stateIn := stateIn, stateOut := stateOut)];
    assert SameShape(a, a');
    DescendantsSameShape(a, a', g);
    PropagateGroupState(a', g)
  }

  /** Set the operation mode of `g` and cascade it onto every descendant. */
  function ChangeOperationMode(a: Arena, g: string, mode: LocationGroupMode): (b: Arena)
    requires g in a
    ensures SameShape(a, b)
    ensures forall d :: d in a && (d == g || Descendant(a, g, d)) ==> b[d].mode == mode
    ensures forall k :: k in a && k != g && !Descendant(a, g, k) ==> b[k] == a[k]
    ensures forall k :: k in a ==> b[k].stateIn == a[k].stateIn && b[k].stateOut == a[k].stateOut
  {
    var ds := Descendants(a, g);
    map k | k in a :: if k == g || k in ds then a[k].(mode := mode) else a[k]
  }
}

=== FILE: location_pk.dfy ===
/**
 * LocationPK: the five-part natural key of a Location (area, aisle, x, y, z),
 * its two constructors, its equality, its XOR hash and its {A/B/X/Y/Z} rendering.
 */
module LocationKey {
  import opened Wrappers
  import opened Strings

  /** The declared maximal length of one key component (a column length and a validation bound, not checked by the constructors). */
  const KEY_LENGTH: nat := 4
  /** How many components make up a key. */
  const NUMBER_OF_KEYS: nat := 5

  datatype LocationPK = LocationPK(area: string, aisle: string, x: string, y: string, z: string)

  /** Why the varargs constructor refuses its argument. */
  datatype KeyError =
    | NullPointer                    // a null array: the error message itself dereferences it
    | WrongNumberOfKeys(count: nat)  // the domain exception carrying the offending count

  /** The components in constructor order. */
  function Components(pk: LocationPK): seq<string> {
    [pk.area, pk.aisle, pk.x, pk.y, pk.z]
  }

  /** The five-argument constructor. */
  function Create(area: string, aisle: string, x: string, y: string, z: string): (pk: LocationPK)
    ensures Components(pk) == [area, aisle, x, y, z]
  {
    LocationPK(area, aisle, x, y, z)
  }

  /** The varargs constructor: exactly five keys, assigned in order; `None` is a null array. */
  function FromKeys(keys: Option<seq<string>>): (r: Result<LocationPK, KeyError>)
    ensures keys.None? ==> r == Failure(NullPointer)
    ensures keys.Some? && |keys.value| != NUMBER_OF_KEYS ==> r == Failure(WrongNumberOfKeys(|keys.value|))
    ensures keys.Some? && |keys.value| == NUMBER_OF_KEYS ==> r.Success? && Components(r.value) == keys.value
  {
    match keys
    case None => Failure(NullPointer)
    case Some(ks) =>
      if |ks| != NUMBER_OF_KEYS then Failure(WrongNumberOfKeys(|ks|))
      else Success(LocationPK(ks[0], ks[1], ks[2], ks[3], ks[4]))
  }

  /** Both constructors build the same key from the same five strings. */
  lemma ConstructorsAgree(area: string, aisle: string, x: string, y: string, z: string)
    ensures FromKeys(Some([area, aisle, x, y, z])) == Success(Create(area, aisle, x, y, z))
  {
  }

  /** Neither constructor enforces KEY_LENGTH: a component of any length is accepted. */
  lemma ConstructorsIgnoreKeyLength(area: string, aisle: string, x: string, y: string, z: string)
    requires |area| > KEY_LENGTH
    ensures FromKeys(Some([area, aisle, x, y, z])).Success?
    ensures |FromKeys(Some([area, aisle, x, y, z])).value.area| > KEY_LENGTH
  {
  }

  /** getNumberOfKeys: every key has exactly this many components. */
  function NumberOfKeys(): (n: nat)
    ensures forall pk :: |Components(pk)| == n
  {
    NUMBER_OF_KEYS
  }

  /** getKeyLength: the width of all components together. */
  function KeyLength(): (n: nat)
    ensures n == NumberOfKeys() * KEY_LENGTH
    ensures n == 20
  {
    NUMBER_OF_KEYS * KEY_LENGTH
  }

  /** equals: `other` is None for null or for an object that is no LocationPK. */
  function Equals(pk: LocationPK, other: Option<LocationPK>): (r: bool)
    ensures r <==> other == Some(pk)
  {
    match other
    case None => false
    case Some(o) =>
      pk.y == o.y && pk.x == o.x && pk.area == o.area && pk.z == o.z && pk.aisle == o.aisle
  }

  /** 2^32: Java int arithmetic wraps around modulo this value. */
  const TWO_TO_THE_32: nat := 0x1_0000_0000

  /** Java's polynomial hash h = 31 * h + unit over code units, wrapped to 32 bits
      (the result is the unsigned reading of the Java int's bit pattern). */
  function HashUnits(u: seq<int>): (h: nat)
    requires forall i :: 0 <= i < |u| ==> 0 <= u[i] < 0x10000
    ensures h < TWO_TO_THE_32
  {
    if u == [] then 0 else (HashUnits(u[..|u| - 1]) * 31 + u[|u| - 1]) % TWO_TO_THE_32
  }

  /** String.hashCode. */
  function JavaHash(s: string): (h: nat)
    ensures h < TWO_TO_THE_32
  {
    HashUnits(Utf16(s))
  }

  /** A spot check of the hash against the Java value of "ab".hashCode(). */
  lemma JavaHashExample()
    ensures JavaHash("ab") == 3105
  {
    assert Utf16("ab") == [97, 98] by {
      assert Utf16("b") == [98];
    }
    assert [97, 98][..1] == [97];
    assert [97][..0] == [];
    assert HashUnits([97]) == 97;
  }

  /** A Java int as its 32 bits, lowest first. */
  type Word = b: seq<bool> | |b| == 32 witness seq(32, _ => false)

  /** The int 0. */
  const ZERO: Word := seq(32, _ => false)

  /** The lowest `k` bits of `n`, lowest first. */
  function BitsOf(n: nat, k: nat): (b: seq<bool>)
    ensures |b| == k
  {
    if k == 0 then [] else [n % 2 == 1] + BitsOf(n / 2, k - 1)
  }

  /** The bit pattern of an unsigned 32-bit value. */
  function ToWord(n: nat): Word {
    BitsOf(n, 32)
  }

  /** Java's `^` on ints: bitwise exclusive or. */
  function Xor(a: Word, b: Word): Word {
    seq(32, i requires 0 <= i < 32 => a[i] != b[i])
  }

  lemma XorCommutative(a: Word, b: Word)
    ensures Xor(a, b) == Xor(b, a)
  {
    assert forall i :: 0 <= i < 32 ==> Xor(a, b)[i] == Xor(b, a)[i];
  }

  lemma XorAssociative(a: Word, b: Word, c: Word)
    ensures Xor(Xor(a, b), c) == Xor(a, Xor(b, c))
  {
    assert forall i :: 0 <= i < 32 ==> Xor(Xor(a, b), c)[i] == Xor(a, Xor(b, c))[i];
  }

  lemma XorZero(a: Word)
    ensures Xor(a, ZERO) == a
  {
    assert forall i :: 0 <= i < 32 ==> Xor(a, ZERO)[i] == a[i];
  }

  lemma XorRotate(p: Word, q: Word, r: Word)
    ensures Xor(p, Xor(q, r)) == Xor(q, Xor(p, r))
  {
    XorAssociative(p, q, r);
    XorCommutative(p, q);
    XorAssociative(q, p, r);
  }

  /** The hash of one component, as the bits of the Java int. */
  function ComponentHash(s: string): Word {
    ToWord(JavaHash(s))
  }

  /** The XOR of the hashes of a sequence of strings, in sequence order. */
  function XorHashes(hash: string -> Word, ss: seq<string>): Word {
    if ss == [] then ZERO else Xor(hash(ss[0]), XorHashes(hash, ss[1..]))
  }

  lemma XorHashesFive(hash: string -> Word, a: string, b: string, c: string, d: string, e: string)
    ensures XorHashes(hash, [a, b, c, d, e])
         == Xor(hash(a), Xor(hash(b), Xor(hash(c), Xor(hash(d), Xor(hash(e), ZERO)))))
  {
    var he := XorHashes(hash, [e]);
    assert he == Xor(hash(e), ZERO) by { assert [e][1..] == []; assert XorHashes(hash, []) == ZERO; }
    var hd := XorHashes(hash, [d, e]);
    assert hd == Xor(hash(d), he) by { assert [d, e][1..] == [e]; }
    var hc := XorHashes(hash, [c, d, e]);
    assert hc == Xor(hash(c), hd) by { assert [c, d, e][1..] == [d, e]; }
    var hb := XorHashes(hash, [b, c, d, e]);
    assert hb == Xor(hash(b), hc) by { assert [b, c, d, e][1..] == [c, d, e]; }
    assert XorHashes(hash, [a, b, c, d, e]) == Xor(hash(a), hb) by { assert [a, b, c, d, e][1..] == [b, c, d, e]; }
  }

  /** y ^ x ^ area ^ z ^ aisle, associating to the left as Java does, equals the XOR in component order. */
  lemma XorFiveReorder(area: Word, aisle: Word, x: Word, y: Word, z: Word)
    ensures Xor(Xor(Xor(Xor(y, x), area), z), aisle)
         == Xor(area, Xor(aisle, Xor(x, Xor(y, Xor(z, ZERO)))))
  {
    var l := Xor(Xor(Xor(Xor(y, x), area), z), aisle);
    var r := Xor(area, Xor(aisle, Xor(x, Xor(y, Xor(z, ZERO)))));
    forall i | 0 <= i < 32
      ensures l[i] == r[i]
    {
      assert l[i] == ((((y[i] != x[i]) != area[i]) != z[i]) != aisle[i]);
      assert r[i] == (area[i] != (aisle[i] != (x[i] != (y[i] != (z[i] != false)))));
    }
  }

  /** hashCode: the XOR of the five component hashes. */
  function HashCode(pk: LocationPK): (h: Word)
    ensures h == XorHashes(ComponentHash, Components(pk))
  {
    XorHashesFive(ComponentHash, pk.area, pk.aisle, pk.x, pk.y, pk.z);
    XorFiveReorder(ComponentHash(pk.area), ComponentHash(pk.aisle), ComponentHash(pk.x),
                   ComponentHash(pk.y), ComponentHash(pk.z));
    Xor(Xor(Xor(Xor(ComponentHash(pk.y), ComponentHash(pk.x)), ComponentHash(pk.area)),
            ComponentHash(pk.z)), ComponentHash(pk.aisle))
  }

  /** Equal keys have equal hashes. */
  lemma HashConsistentWithEquals(pk: LocationPK, other: LocationPK)
    requires Equals(pk, Some(other))
    ensures HashCode(pk) == HashCode(other)
  {
  }

  lemma {:induction false} XorHashesConcat(hash: string -> Word, s: seq<string>, t: seq<string>)
    ensures XorHashes(hash, s + t) == Xor(XorHashes(hash, s), XorHashes(hash, t))
    decreases |s|
  {
    if s == [] {
      assert s + t == t;
      XorCommutative(ZERO, XorHashes(hash, t));
      XorZero(XorHashes(hash, t));
    } else {
      assert (s + t)[1..] == s[1..] + t;
      XorHashesConcat(hash, s[1..], t);
      XorAssociative(hash(s[0]), XorHashes(hash, s[1..]), XorHashes(hash, t));
    }
  }

  /** Taking one element out of two equal multisets leaves equal multisets. */
  lemma MultisetTakeOut(s: seq<string>, t: seq<string>, j: nat)
    requires multiset(s) == multiset(t)
    requires s != [] && j < |t| && t[j] == s[0]
    ensures multiset(s[1..]) == multiset(t[..j] + t[j + 1..])
  {
    assert t == t[..j] + [t[j]] + t[j + 1..];
    assert s == [s[0]] + s[1..];
    assert multiset(t) == multiset(t[..j] + t[j + 1..]) + multiset{t[j]};
    assert multiset(s) == multiset(s[1..]) + multiset{s[0]};
    assert multiset(s[1..]) == multiset(s) - multiset{s[0]};
  }

  /** Taking one element out of the middle of a sequence takes its hash out of the XOR. */
  lemma XorHashesTakeOut(hash: string -> Word, t: seq<string>, j: nat)
    requires j < |t|
    ensures XorHashes(hash, t) == Xor(hash(t[j]), XorHashes(hash, t[..j] + t[j + 1..]))
  {
    var pre, mid, post := t[..j], [t[j]], t[j + 1..];
    var p, m, q := XorHashes(hash, pre), hash(t[j]), XorHashes(hash, post);
    assert XorHashes(hash, t) == Xor(XorHashes(hash, pre + mid), q) by {
      assert t == pre + mid + post;
      XorHashesConcat(hash, pre + mid, post);
    }
    assert XorHashes(hash, pre + mid) == Xor(p, m) by {
      XorHashesConcat(hash, pre, mid);
      assert mid[1..] == [];
      XorZero(m);
    }
    XorHashesConcat(hash, pre, post);
    XorAssociative(p, m, q);
    XorRotate(p, m, q);
  }

  /** The XOR of hashes does not depend on the order of the strings. */
  lemma {:induction false} XorHashesPermutation(hash: string -> Word, s: seq<string>, t: seq<string>)
    requires multiset(s) == multiset(t)
    ensures XorHashes(hash, s) == XorHashes(hash, t)
    decreases |s|
  {
    if s != [] {
      assert s[0] in multiset(t);
      var j :| 0 <= j < |t| && t[j] == s[0];
      MultisetTakeOut(s, t, j);
      XorHashesPermutation(hash, s[1..], t[..j] + t[j + 1..]);
      XorHashesTakeOut(hash, t, j);
    }
  }

  /** Keys whose components are a permutation of each other collide in hashCode. */
  lemma PermutedKeysCollide(p: LocationPK, q: LocationPK)
    requires multiset(Components(p)) == multiset(Components(q))
    ensures HashCode(p) == HashCode(q)
  {
    XorHashesPermutation(ComponentHash, Components(p), Components(q));
  }

  /** A concrete collision: two different keys with the same hash. */
  lemma DistinctKeysCollide()
    ensures LocationPK("A", "B", "C", "D", "E") != LocationPK("E", "D", "C", "B", "A")
    ensures HashCode(LocationPK("A", "B", "C", "D", "E")) == HashCode(LocationPK("E", "D", "C", "B", "A"))
  {
    var p := LocationPK("A", "B", "C", "D", "E");
    var q := LocationPK("E", "D", "C", "B", "A");
    assert Components(q) == [p.z, p.y, p.x, p.aisle, p.area];
    assert multiset(Components(p)) == multiset(Components(q));
    PermutedKeysCollide(p, q);
  }

  /** The parts separated by single '/' characters. */
  function JoinSlash(parts: seq<string>): string
    requires |parts| >= 1
  {
    if |parts| == 1 then parts[0] else parts[0] + "/" + JoinSlash(parts[1..])
  }

  /** Splitting undoes joining when no part holds the separator. */
  lemma {:induction false} SplitJoinSlash(parts: seq<string>)
    requires |parts| >= 1
    requires forall i :: 0 <= i < |parts| ==> '/' !in parts[i]
    ensures Split(JoinSlash(parts), '/') == parts
    decreases |parts|
  {
    if |parts| > 1 {
      var tail := parts[1..];
      assert forall i :: 0 <= i < |tail| ==> '/' !in tail[i] by {
        forall i | 0 <= i < |tail| ensures '/' !in tail[i] { assert tail[i] == parts[i + 1]; }
      }
      SplitJoinSlash(tail);
      assert JoinSlash(parts) == parts[0] + ['/'] + JoinSlash(tail);
      SplitCons(parts[0], '/', JoinSlash(tail));
      assert [parts[0]] + tail == parts;
    }
  }

  lemma JoinSlashFive(a: string, b: string, c: string, d: string, e: string)
    ensures JoinSlash([a, b, c, d, e]) == a + "/" + b + "/" + c + "/" + d + "/" + e
  {
    assert JoinSlash([d, e]) == d + "/" + e by { assert [d, e][1..] == [e]; }
    assert JoinSlash([c, d, e]) == c + "/" + d + "/" + e by { assert [c, d, e][1..] == [d, e]; }
    assert JoinSlash([b, c, d, e]) == b + "/" + c + "/" + d + "/" + e by { assert [b, c, d, e][1..] == [c, d, e]; }
    assert [a, b, c, d, e][1..] == [b, c, d, e];
  }

  /** toString: {AREA/AISLE/X/Y/Z}. */
  function Render(pk: LocationPK): (s: string)
    ensures s == "{" + JoinSlash(Components(pk)) + "}"
  {
    JoinSlashFive(pk.area, pk.aisle, pk.x, pk.y, pk.z);
    "{" + pk.area + "/" + pk.aisle + "/" + pk.x + "/" + pk.y + "/" + pk.z + "}"
  }

  /** The inverse of Render: strip the braces and split at '/'. */
  function ParseRendering(s: string): Option<LocationPK> {
    if |s| < 2 || s[0] != '{' || s[|s| - 1] != '}' then None
    else
      var parts := Split(s[1..|s| - 1], '/');
      if |parts| == NUMBER_OF_KEYS then Some(LocationPK(parts[0], parts[1], parts[2], parts[3], parts[4]))
      else None
  }

  /** No component contains the separator. */
  predicate SlashFree(pk: LocationPK) {
    '/' !in pk.area && '/' !in pk.aisle && '/' !in pk.x && '/' !in pk.y && '/' !in pk.z
  }

  /** The rendering of a key whose components hold no '/' reads back as the same key. */
  lemma RenderRoundTrip(pk: LocationPK)
    requires SlashFree(pk)
    ensures ParseRendering(Render(pk)) == Some(pk)
  {
    var cs := Components(pk);
    var inner := JoinSlash(cs);
    var s := Render(pk);
    assert s[1..|s| - 1] == inner;
    SplitJoinSlash(cs);
  }

  /** Rendering tells slash-free keys apart. */
  lemma RenderInjective(p: LocationPK, q: LocationPK)
    requires SlashFree(p) && SlashFree(q)
    requires Render(p) == Render(q)
    ensures p == q
  {
    RenderRoundTrip(p);
    RenderRoundTrip(q);
  }
}

=== FILE: strings.dfy ===
/** Splitting a string at a separator character, as both the LocationPK rendering and the unit tag need it. */
module Strings {

  /** The index of the first occurrence of `sep` in `s`. */
  function IndexOf(s: string, sep: char): (i: nat)
    requires sep in s
    ensures i < |s| && s[i] == sep
    ensures sep !in s[..i]
  {
    if s[0] == sep then 0 else 1 + IndexOf(s[1..], sep)
  }

  /** All segments of `s` between occurrences of `sep`, empty segments included. */
  function Split(s: string, sep: char): (parts: seq<string>)
    ensures |parts| >= 1
    decreases |s|
  {
    if sep !in s then [s]
    else
      var i := IndexOf(s, sep);
      [s[..i]] + Split(s[i + 1..], sep)
  }

  /** Joining with the separator is undone by splitting, one segment at a time. */
  lemma {:induction false} SplitCons(head: string, sep: char, rest: string)
    requires sep !in head
    ensures Split(head + [sep] + rest, sep) == [head] + Split(rest, sep)
  {
    var s := head + [sep] + rest;
    assert s[|head|] == sep;
    assert sep in s;
    var i := IndexOf(s, sep);
    assert i == |head|;
    assert s[..i] == head;
    assert s[i + 1..] == rest;
  }

  /** Java's String.split with a single-character pattern and no limit:
      a string without the separator yields itself, otherwise trailing empty segments are dropped. */
  function JavaSplit(s: string, sep: char): (parts: seq<string>)
  {
    if sep !in s then [s] else DropTrailingEmpty(Split(s, sep))
  }

  /** The longest prefix of `parts` that does not end in an empty string. */
  function DropTrailingEmpty(parts: seq<string>): (r: seq<string>)
    ensures |r| <= |parts| && r == parts[..|r|]
    ensures r == [] || r[|r| - 1] != []
    ensures forall k :: |r| <= k < |parts| ==> parts[k] == []
  {
    if parts == [] then []
    else if parts[|parts| - 1] == [] then DropTrailingEmpty(parts[..|parts| - 1])
    else parts
  }

  /* ------------------------------ UTF-16 ------------------------------ */

  /** The UTF-16 code units of one character, as Java stores it: the
      character itself below U+10000, otherwise a high and a low surrogate
      from which the character can be recovered. */
  function CodeUnits(c: char): (u: seq<int>)
    ensures 1 <= |u| <= 2
    ensures forall i :: 0 <= i < |u| ==> 0 <= u[i] < 0x10000
    ensures c as int < 0x10000 <==> |u| == 1
    ensures |u| == 1 ==> u[0] == c as int
    ensures |u| == 2 ==> 0xD800 <= u[0] < 0xDC00 <= u[1] < 0xE000
    ensures |u| == 2 ==> 0x10000 + (u[0] - 0xD800) * 0x400 + (u[1] - 0xDC00) == c as int
  {
    var v := c as int;
    if v < 0x10000 then [v]
    else [0xD800 + (v - 0x10000) / 0x400, 0xDC00 + (v - 0x10000) % 0x400]
  }

  /** The UTF-16 code units of a string: String.length counts these, and
      String.charAt indexes them. */
  function Utf16(s: string): (u: seq<int>)
    ensures |s| <= |u| <= 2 * |s|
    ensures forall i :: 0 <= i < |u| ==> 0 <= u[i] < 0x10000
  {
    if s == [] then [] else CodeUnits(s[0]) + Utf16(s[1..])
  }

  /** Encoding is character by character. */
  lemma {:induction false} Utf16Concat(s: string, t: string)
    ensures Utf16(s + t) == Utf16(s) + Utf16(t)
    decreases |s|
  {
    if s != [] {
      assert (s + t)[0] == s[0];
      assert (s + t)[1..] == s[1..] + t;
      Utf16Concat(s[1..], t);
    } else {
      assert s + t == t;
    }
  }

  /** Below U+10000 a character is one code unit, so the units are the characters. */
  lemma {:induction false} Utf16Bmp(s: string)
    requires forall i :: 0 <= i < |s| ==> s[i] as int < 0x10000
    ensures |Utf16(s)| == |s|
    ensures forall i :: 0 <= i < |s| ==> Utf16(s)[i] == s[i] as int
    decreases |s|
  {
    if s != [] {
      assert forall i :: 0 <= i < |s[1..]| ==> s[1..][i] == s[i + 1];
      Utf16Bmp(s[1..]);
      assert Utf16(s) == [s[0] as int] + Utf16(s[1..]);
    }
  }
}

=== FILE: target_controller.dfy ===
/**
 * The target lock control plane: resolving a business key to a Location or a
 * LocationGroup, the (LockType, LockMode) transition tables, the permanent
 * lock and release, and the events they publish.
 */
module TargetControl {
  import opened Wrappers
  import opened LocationApi
  import opened GroupTree

  /** A Location, reduced to the lock code last applied to it. */
  datatype Location = Location(lockState: ErrorCodeVO)

  /** What the controller reads and writes: Locations by business key, the group arena, and the event bus. */
  datatype Targets = Targets(locations: map<string, Location>, groups: Arena, published: seq<TargetEvent>)

  /** The message keys of the not-found failures. */
  datatype MessageCode = LOCATION_ID_INVALID | TARGET_NOT_SUPPORTED

  datatype TargetError =
    | NotFound(code: MessageCode, targetBK: string)  // NotFoundException
    | LockTypeUnsupported(lockType: LockType)        // BusinessRuntimeException with LOCK_TYPE_UNSUPPORTED
    | UnsupportedOperation                           // UnsupportedOperationException

  /* ---------------------------- transition tables ---------------------------- */

  /** ALLOCATION_LOCK on a Location. */
  function LocationLockCode(mode: LockMode): (code: ErrorCodeVO)
    ensures LocksIn(code) <==> BlocksIn(mode)
    ensures LocksOut(code) <==> BlocksOut(mode)
  {
    match mode
    case IN => LOCK_STATE_IN
    case OUT => LOCK_STATE_OUT
    case IN_AND_OUT => LOCK_STATE_IN_AND_OUT
    case NONE => UNLOCK_STATE_IN_AND_OUT
  }

  /** ALLOCATION_LOCK on a LocationGroup: the pair (stateIn, stateOut). */
  function GroupLockStates(mode: LockMode): (states: (LocationGroupState, LocationGroupState))
    ensures states.0 == NOT_AVAILABLE <==> BlocksIn(mode)
    ensures states.1 == NOT_AVAILABLE <==> BlocksOut(mode)
  {
    match mode
    case IN => (NOT_AVAILABLE, AVAILABLE)
    case OUT => (AVAILABLE, NOT_AVAILABLE)
    case IN_AND_OUT => (NOT_AVAILABLE, NOT_AVAILABLE)
    case NONE => (AVAILABLE, AVAILABLE)
  }

  /** OPERATION_LOCK on a LocationGroup: the operation mode left over. */
  function GroupOperationMode(mode: LockMode): (m: LocationGroupMode)
    ensures AllowsInfeed(m) <==> !BlocksIn(mode)
    ensures AllowsOutfeed(m) <==> !BlocksOut(mode)
  {
    match mode
    case IN => OUTFEED
    case OUT => INFEED
    case IN_AND_OUT => NO_OPERATION
    case NONE => INFEED_AND_OUTFEED
  }

  /** A lock code is fixed by the directions it locks, so the contract of LocationLockCode determines its value. */
  lemma LockCodeDeterminedByDirections(c: ErrorCodeVO, d: ErrorCodeVO)
    requires LocksIn(c) == LocksIn(d) && LocksOut(c) == LocksOut(d)
    ensures c == d
  {
  }

  /** An operation mode is fixed by the directions it allows, so the contract of GroupOperationMode determines its value. */
  lemma OperationModeDeterminedByDirections(m: LocationGroupMode, n: LocationGroupMode)
    requires AllowsInfeed(m) == AllowsInfeed(n) && AllowsOutfeed(m) == AllowsOutfeed(n)
    ensures m == n
  {
  }

  /** Each table tells all four lock modes apart, and the three tables agree on the lock mode they encode. */
  lemma TablesAreInjective(m: LockMode, n: LockMode)
    ensures LocationLockCode(m) == LocationLockCode(n) <==> m == n
    ensures GroupLockStates(m) == GroupLockStates(n) <==> m == n
    ensures GroupOperationMode(m) == GroupOperationMode(n) <==> m == n
  {
  }

  /* ------------------------------ resolution ------------------------------ */

  /** The key names an existing target: a Location when it parses as a location key, else a group. */
  predicate Resolves(isLocationKey: string -> bool, t: Targets, targetBK: string) {
    if isLocationKey(targetBK) then targetBK in t.locations else targetBK in t.groups
  }

  /** The failure for a key that does not resolve. */
  function NotFoundError(isLocationKey: string -> bool, targetBK: string): TargetError {
    if isLocationKey(targetBK) then NotFound(LOCATION_ID_INVALID, targetBK) else NotFound(TARGET_NOT_SUPPORTED, targetBK)
  }

  /* ----------------------- how a transition may change the store ----------------------- */

  /** Only the Location `bk` changed, and it now carries `code`. */
  predicate LocationSetTo(before: Targets, after: Targets, bk: string, code: ErrorCodeVO) {
    && bk in before.locations
    && after.locations.Keys == before.locations.Keys
    && after.locations[bk].lockState == code
    && (forall k :: k in before.locations && k != bk ==> after.locations[k] == before.locations[k])
    && after.groups == before.groups
  }

  /** The group `g` and every group below it have the states and mode chosen by `fix`;
      every other group, the links, and the Locations are untouched. */
  ghost predicate SubtreeRewritten(before: Targets, after: Targets, g: string,
                                   fix: (LocationGroup, LocationGroup) -> bool) {
    && g in before.groups
    && SameShape(before.groups, after.groups)
    && after.locations == before.locations
    && (forall k :: k in before.groups && InSubtree(before.groups, g, k) ==> fix(before.groups[k], after.groups[k]))
    && (forall k :: k in before.groups && !InSubtree(before.groups, g, k) ==> after.groups[k] == before.groups[k])
  }

  /** The group change an ALLOCATION_LOCK with `mode` makes: directions blocked by the mode become NOT_AVAILABLE. */
  ghost predicate AllocatedAs(mode: LockMode, old_: LocationGroup, new_: LocationGroup) {
    && (new_.stateIn == NOT_AVAILABLE <==> BlocksIn(mode))
    && (new_.stateOut == NOT_AVAILABLE <==> BlocksOut(mode))
    && new_.mode == old_.mode
  }

  /** The group change an OPERATION_LOCK with `mode` makes: only directions the mode leaves open are operated. */
  ghost predicate OperatedAs(mode: LockMode, old_: LocationGroup, new_: LocationGroup) {
    && (AllowsInfeed(new_.mode) <==> !BlocksIn(mode))
    && (AllowsOutfeed(new_.mode) <==> !BlocksOut(mode))
    && new_.stateIn == old_.stateIn && new_.stateOut == old_.stateOut
  }

  /** The group `g` and every group below it have both states `s` and mode `m`, their links kept;
      every other group and the Locations are untouched. */
  ghost predicate SubtreeForced(before: Targets, after: Targets, g: string, s: LocationGroupState, m: LocationGroupMode) {
    && g in before.groups
    && after.groups.Keys == before.groups.Keys
    && after.locations == before.locations
    && forall k :: k in before.groups ==>
         after.groups[k] == if InSubtree(before.groups, g, k) then before.groups[k].(stateIn := s, stateOut := s, mode := m)
                            else before.groups[k]
  }

  /* ------------------------------ operations ------------------------------ */

  /** Apply ALLOCATION_LOCK to a group: one changeGroupState call, cascading. */
  function AllocateGroup(t: Targets, g: string, mode: LockMode): (r: Targets)
    requires g in t.groups
    ensures SubtreeRewritten(t, r, g, (o, n) => AllocatedAs(mode, o, n))
    ensures r.published == t.published
  {
    var states := GroupLockStates(mode);
    t.(groups := ChangeGroupState(t.groups, g, states.0, states.1))
  }

  /** Apply OPERATION_LOCK to a group: one changeOperationMode call, cascading. */
  function OperateGroup(t: Targets, g: string, mode: LockMode): (r: Targets)
    requires g in t.groups
    ensures SubtreeRewritten(t, r, g, (o, n) => OperatedAs(mode, o, n))
    ensures r.published == t.published
  {
    t.(groups := ChangeOperationMode(t.groups, g, GroupOperationMode(mode)))
  }

  /** Force a group's states and mode, cascading both (the group half of lock and release). */
  function ForceGroup(t: Targets, g: string, s: LocationGroupState, mode: LocationGroupMode): (r: Targets)
    requires g in t.groups
    ensures SubtreeForced(t, r, g, s, mode)
    ensures r.published == t.published
    ensures r == t.(groups := r.groups)
  {
    var a1 := ChangeGroupState(t.groups, g, s, s);
    DescendantSameShape(t.groups, a1, g);
    t.(groups := ChangeOperationMode(a1, g, mode))
  }

  /** changeState: the general (LockType, LockMode) matrix. Publishes no event. */
  function ChangeState(isLocationKey: string -> bool, t: Targets, targetBK: string,
                       lockType: LockType, mode: LockMode): (r: Result<Targets, TargetError>)
    ensures !Resolves(isLocationKey, t, targetBK) ==> r == Failure(NotFoundError(isLocationKey, targetBK))
    ensures Resolves(isLocationKey, t, targetBK) && lockType == PERMANENT_LOCK ==>
              r == Failure(LockTypeUnsupported(PERMANENT_LOCK))
    ensures Resolves(isLocationKey, t, targetBK) && isLocationKey(targetBK) && lockType == OPERATION_LOCK ==>
              r == Failure(UnsupportedOperation)
    ensures r.Success? <==>
              && Resolves(isLocationKey, t, targetBK)
              && (lockType == ALLOCATION_LOCK || (lockType == OPERATION_LOCK && !isLocationKey(targetBK)))
    ensures r.Success? ==> r.value.published == t.published
    ensures r.Success? && isLocationKey(targetBK) ==>
              && targetBK in r.value.locations
              && LocationSetTo(t, r.value, targetBK, r.value.locations[targetBK].lockState)
              && (LocksIn(r.value.locations[targetBK].lockState) <==> BlocksIn(mode))
              && (LocksOut(r.value.locations[targetBK].lockState) <==> BlocksOut(mode))
    ensures r.Success? && !isLocationKey(targetBK) && lockType == ALLOCATION_LOCK ==>
              SubtreeRewritten(t, r.value, targetBK, (o, n) => AllocatedAs(mode, o, n))
    ensures r.Success? && !isLocationKey(targetBK) && lockType == OPERATION_LOCK ==>
              SubtreeRewritten(t, r.value, targetBK, (o, n) => OperatedAs(mode, o, n))
  {
    if isLocationKey(targetBK) then
      if targetBK !in t.locations then Failure(NotFound(LOCATION_ID_INVALID, targetBK))
      else
        match lockType
        case ALLOCATION_LOCK =>
          Success(t.(locations := t.locations[targetBK := Location(LocationLockCode(mode))]))
        case OPERATION_LOCK => Failure(UnsupportedOperation)
        case PERMANENT_LOCK => Failure(LockTypeUnsupported(lockType))
    else if targetBK in t.groups then
      match lockType
      case ALLOCATION_LOCK => Success(AllocateGroup(t, targetBK, mode))
      case OPERATION_LOCK => Success(OperateGroup(t, targetBK, mode))
      case PERMANENT_LOCK => Failure(LockTypeUnsupported(lockType))
    else Failure(NotFound(TARGET_NOT_SUPPORTED, targetBK))
  }

  /** raiseEvent: the event lock and release publish. */
  function PermanentLockEvent(targetBK: string, reAllocation: Option<bool>, mode: LockMode): (e: TargetEvent)
    ensures e.lockType == PERMANENT_LOCK && e.targetBK == targetBK
    ensures e.operationMode == mode && e.reAllocation == reAllocation
  {
    TargetEvent(targetBK, PERMANENT_LOCK, mode, reAllocation)
  }

  /** lock: the permanent full lock, publishing one event that forwards `reAllocation`. */
  function Lock(isLocationKey: string -> bool, t: Targets, targetBK: string,
                reAllocation: Option<bool>): (r: Result<Targets, TargetError>)
    ensures r.Success? <==> Resolves(isLocationKey, t, targetBK)
    ensures r.Failure? ==> r.error == NotFoundError(isLocationKey, targetBK)
    ensures r.Success? ==> r.value.published == t.published + [TargetEvent(targetBK, PERMANENT_LOCK, NONE, reAllocation)]
    ensures r.Success? && isLocationKey(targetBK) ==>
              LocationSetTo(t, r.value, targetBK, LOCK_STATE_IN_AND_OUT)
    ensures r.Success? && !isLocationKey(targetBK) ==>
              SubtreeForced(t, r.value, targetBK, NOT_AVAILABLE, NO_OPERATION)
  {
    if isLocationKey(targetBK) then
      if targetBK !in t.locations then Failure(NotFound(LOCATION_ID_INVALID, targetBK))
      else
        var t1 := t.(locations := t.locations[targetBK := Location(LOCK_STATE_IN_AND_OUT)]);
        Success(t1.(published := t1.published + [PermanentLockEvent(targetBK, reAllocation, NONE)]))
    else if targetBK in t.groups then
      var t1 := ForceGroup(t, targetBK, NOT_AVAILABLE, NO_OPERATION);
      Success(t1.(published := t1.published + [PermanentLockEvent(targetBK, reAllocation, NONE)]))
    else Failure(NotFound(TARGET_NOT_SUPPORTED, targetBK))
  }

  /** release: the permanent full unlock, publishing one event without a re-allocation flag. */
  function Release(isLocationKey: string -> bool, t: Targets, targetBK: string): (r: Result<Targets, TargetError>)
    ensures r.Success? <==> Resolves(isLocationKey, t, targetBK)
    ensures r.Failure? ==> r.error == NotFoundError(isLocationKey, targetBK)
    ensures r.Success? ==> r.value.published == t.published + [TargetEvent(targetBK, PERMANENT_LOCK, IN_AND_OUT, None)]
    ensures r.Success? && isLocationKey(targetBK) ==>
              LocationSetTo(t, r.value, targetBK, UNLOCK_STATE_IN_AND_OUT)
    ensures r.Success? && !isLocationKey(targetBK) ==>
              SubtreeForced(t, r.value, targetBK, AVAILABLE, INFEED_AND_OUTFEED)
  {
    if isLocationKey(targetBK) then
      if targetBK !in t.locations then Failure(NotFound(LOCATION_ID_INVALID, targetBK))
      else
        var t1 := t.(locations := t.locations[targetBK := Location(UNLOCK_STATE_IN_AND_OUT)]);
        Success(t1.(published := t1.published + [PermanentLockEvent(targetBK, None, IN_AND_OUT)]))
    else if targetBK in t.groups then
      var t1 := ForceGroup(t, targetBK, AVAILABLE, INFEED_AND_OUTFEED);
      Success(t1.(published := t1.published + [PermanentLockEvent(targetBK, None, IN_AND_OUT)]))
    else Failure(NotFound(TARGET_NOT_SUPPORTED, targetBK))
  }

  /* ------------------------------- properties ------------------------------- */

  /** Two forces of the same subtree in a row: the second overwrites all the first wrote. */
  lemma ForcedTwice(t: Targets, t1: Targets, t2: Targets, t3: Targets, g: string,
                    s1: LocationGroupState, m1: LocationGroupMode, s2: LocationGroupState, m2: LocationGroupMode)
    requires SubtreeForced(t, t1, g, s1, m1)
    requires SubtreeForced(t1, t2, g, s2, m2)
    requires SubtreeForced(t, t3, g, s2, m2)
    ensures t2.groups == t3.groups
  {
    assert SameShape(t.groups, t1.groups) by {
      forall k | k in t.groups
        ensures t1.groups[k].parent == t.groups[k].parent && t1.groups[k].children == t.groups[k].children
      {
      }
    }
    DescendantSameShape(t.groups, t1.groups, g);
    forall k | k in t3.groups
      ensures t2.groups[k] == t3.groups[k]
    {
      assert InSubtree(t.groups, g, k) == InSubtree(t1.groups, g, k);
    }
  }

  /** Forcing a subtree twice leaves what the second force wrote: nothing of the first survives. */
  lemma ForceGroupTwice(t: Targets, g: string, s1: LocationGroupState, m1: LocationGroupMode,
                        s2: LocationGroupState, m2: LocationGroupMode)
    requires g in t.groups
    ensures ForceGroup(ForceGroup(t, g, s1, m1), g, s2, m2).groups == ForceGroup(t, g, s2, m2).groups
  {
    var t1 := ForceGroup(t, g, s1, m1);
    ForcedTwice(t, t1, ForceGroup(t1, g, s2, m2), ForceGroup(t, g, s2, m2), g, s1, m1, s2, m2);
  }

  /** Two events in a row. */
  lemma AppendBoth(events: seq<TargetEvent>, e: TargetEvent, f: TargetEvent)
    ensures events + [e] + [f] == events + [e, f]
  {
  }

  /** release after lock on a Location: the second write replaces the first. */
  lemma ReleaseLockedLocation(isLocationKey: string -> bool, t: Targets, bk: string, reAllocation: Option<bool>)
    requires isLocationKey(bk) && bk in t.locations
    ensures var e := TargetEvent(bk, PERMANENT_LOCK, NONE, reAllocation);
            var f := TargetEvent(bk, PERMANENT_LOCK, IN_AND_OUT, None);
            var locked := t.(locations := t.locations[bk := Location(LOCK_STATE_IN_AND_OUT)],
                             published := t.published + [e]);
            var released := t.(locations := t.locations[bk := Location(UNLOCK_STATE_IN_AND_OUT)],
                               published := t.published + [f]);
            && Lock(isLocationKey, t, bk, reAllocation) == Success(locked)
            && Release(isLocationKey, t, bk) == Success(released)
            && Release(isLocationKey, locked, bk) == Success(released.(published := t.published + [e, f]))
  {
    var e := TargetEvent(bk, PERMANENT_LOCK, NONE, reAllocation);
    var f := TargetEvent(bk, PERMANENT_LOCK, IN_AND_OUT, None);
    var locked := t.(locations := t.locations[bk := Location(LOCK_STATE_IN_AND_OUT)], published := t.published + [e]);
    assert locked.locations[bk := Location(UNLOCK_STATE_IN_AND_OUT)] == t.locations[bk := Location(UNLOCK_STATE_IN_AND_OUT)];
    AppendBoth(t.published, e, f);
  }

  /** release after lock on a LocationGroup: the second force overwrites the first. */
  lemma ReleaseLockedGroup(isLocationKey: string -> bool, t: Targets, g: string, reAllocation: Option<bool>)
    requires !isLocationKey(g) && g in t.groups
    ensures var e := TargetEvent(g, PERMANENT_LOCK, NONE, reAllocation);
            var f := TargetEvent(g, PERMANENT_LOCK, IN_AND_OUT, None);
            var locked := ForceGroup(t, g, NOT_AVAILABLE, NO_OPERATION).(published := t.published + [e]);
            var released := ForceGroup(t, g, AVAILABLE, INFEED_AND_OUTFEED).(published := t.published + [f]);
            && Lock(isLocationKey, t, g, reAllocation) == Success(locked)
            && Release(isLocationKey, t, g) == Success(released)
            && Release(isLocationKey, locked, g) == Success(released.(published := t.published + [e, f]))
  {
    var e := TargetEvent(g, PERMANENT_LOCK, NONE, reAllocation);
    var f := TargetEvent(g, PERMANENT_LOCK, IN_AND_OUT, None);
    var t1 := ForceGroup(t, g, NOT_AVAILABLE, NO_OPERATION);
    var locked := t1.(published := t.published + [e]);
    var direct := ForceGroup(t, g, AVAILABLE, INFEED_AND_OUTFEED);
    ForceGroupReadsGroups(t1, locked, g, AVAILABLE, INFEED_AND_OUTFEED);
    ForceGroupTwice(t, g, NOT_AVAILABLE, NO_OPERATION, AVAILABLE, INFEED_AND_OUTFEED);
    assert ForceGroup(t1, g, AVAILABLE, INFEED_AND_OUTFEED).groups == direct.groups;
    assert ForceGroup(locked, g, AVAILABLE, INFEED_AND_OUTFEED) == locked.(groups := direct.groups);
    assert locked.(groups := direct.groups) == direct.(published := t.published + [e]);
    AppendBoth(t.published, e, f);
  }

  /** release after lock is release alone, plus the lock's event: the reset does not depend on the prior lock. */
  lemma LockThenReleaseIsRelease(isLocationKey: string -> bool, t: Targets, targetBK: string, reAllocation: Option<bool>)
    requires Resolves(isLocationKey, t, targetBK)
    ensures Release(isLocationKey, Lock(isLocationKey, t, targetBK, reAllocation).value, targetBK).Success?
    ensures Release(isLocationKey, Lock(isLocationKey, t, targetBK, reAllocation).value, targetBK).value
         == Release(isLocationKey, t, targetBK).value.(published := t.published + [
              TargetEvent(targetBK, PERMANENT_LOCK, NONE, reAllocation),
              TargetEvent(targetBK, PERMANENT_LOCK, IN_AND_OUT, None)])
  {
    if isLocationKey(targetBK) {
      ReleaseLockedLocation(isLocationKey, t, targetBK, reAllocation);
    } else {
      ReleaseLockedGroup(isLocationKey, t, targetBK, reAllocation);
    }
  }

  /** lock then release leaves the target fully open, whatever its state before. */
  lemma LockThenReleaseOpensFully(isLocationKey: string -> bool, t: Targets, targetBK: string, reAllocation: Option<bool>)
    requires Resolves(isLocationKey, t, targetBK)
    ensures var r := Release(isLocationKey, Lock(isLocationKey, t, targetBK, reAllocation).value, targetBK);
            && r.Success?
            && (isLocationKey(targetBK) ==> LocationSetTo(t, r.value, targetBK, UNLOCK_STATE_IN_AND_OUT))
            && (!isLocationKey(targetBK) ==> SubtreeForced(t, r.value, targetBK, AVAILABLE, INFEED_AND_OUTFEED))
  {
    LockThenReleaseIsRelease(isLocationKey, t, targetBK, reAllocation);
  }

  /** lock twice on a Location: the second lock writes what is already there. */
  lemma LockLocationTwice(isLocationKey: string -> bool, t: Targets, bk: string, reAllocation: Option<bool>)
    requires isLocationKey(bk) && bk in t.locations
    ensures var e := TargetEvent(bk, PERMANENT_LOCK, NONE, reAllocation);
            var locked := t.(locations := t.locations[bk := Location(LOCK_STATE_IN_AND_OUT)],
                             published := t.published + [e]);
            && Lock(isLocationKey, t, bk, reAllocation) == Success(locked)
            && Lock(isLocationKey, locked, bk, reAllocation) == Success(locked.(published := t.published + [e, e]))
  {
    var e := TargetEvent(bk, PERMANENT_LOCK, NONE, reAllocation);
    var locked := t.(locations := t.locations[bk := Location(LOCK_STATE_IN_AND_OUT)], published := t.published + [e]);
    assert locked.locations[bk := Location(LOCK_STATE_IN_AND_OUT)] == locked.locations;
    AppendTwice(t.published, e);
  }

  lemma AppendTwice(events: seq<TargetEvent>, e: TargetEvent)
    ensures events + [e] + [e] == events + [e, e]
  {
  }

  /** Forcing reads nothing of the Targets but the groups. */
  lemma ForceGroupReadsGroups(t: Targets, u: Targets, g: string, s: LocationGroupState, m: LocationGroupMode)
    requires g in t.groups && u.groups == t.groups
    ensures ForceGroup(u, g, s, m) == u.(groups := ForceGroup(t, g, s, m).groups)
  {
  }

  /** lock twice on a LocationGroup: the second force writes what the first wrote. */
  lemma LockGroupTwice(isLocationKey: string -> bool, t: Targets, g: string, reAllocation: Option<bool>)
    requires !isLocationKey(g) && g in t.groups
    ensures var e := TargetEvent(g, PERMANENT_LOCK, NONE, reAllocation);
            var locked := ForceGroup(t, g, NOT_AVAILABLE, NO_OPERATION).(published := t.published + [e]);
            && Lock(isLocationKey, t, g, reAllocation) == Success(locked)
            && Lock(isLocationKey, locked, g, reAllocation) == Success(locked.(published := t.published + [e, e]))
  {
    var e := TargetEvent(g, PERMANENT_LOCK, NONE, reAllocation);
    var t1 := ForceGroup(t, g, NOT_AVAILABLE, NO_OPERATION);
    var locked := t1.(published := t.published + [e]);
    ForceGroupReadsGroups(t1, locked, g, NOT_AVAILABLE, NO_OPERATION);
    ForceGroupTwice(t, g, NOT_AVAILABLE, NO_OPERATION, NOT_AVAILABLE, NO_OPERATION);
    assert ForceGroup(t1, g, NOT_AVAILABLE, NO_OPERATION).groups == t1.groups;
    assert ForceGroup(locked, g, NOT_AVAILABLE, NO_OPERATION) == locked.(groups := t1.groups);
    assert locked.(groups := t1.groups) == locked;
    AppendTwice(t.published, e);
  }

  /** lock twice is lock once, plus a second event. */
  lemma LockIdempotent(isLocationKey: string -> bool, t: Targets, targetBK: string, reAllocation: Option<bool>)
    requires Resolves(isLocationKey, t, targetBK)
    ensures Lock(isLocationKey, Lock(isLocationKey, t, targetBK, reAllocation).value, targetBK, reAllocation).value
         == Lock(isLocationKey, t, targetBK, reAllocation).value.(published := t.published + [
              TargetEvent(targetBK, PERMANENT_LOCK, NONE, reAllocation),
              TargetEvent(targetBK, PERMANENT_LOCK, NONE, reAllocation)])
  {
    if isLocationKey(targetBK) {
      LockLocationTwice(isLocationKey, t, targetBK, reAllocation);
    } else {
      LockGroupTwice(isLocationKey, t, targetBK, reAllocation);
    }
  }

  /** A key accepted as a location key never reaches the group lookup: the groups neither decide nor change the outcome. */
  lemma LocationKeyIgnoresGroups(isLocationKey: string -> bool, t: Targets, targetBK: string, groups: Arena,
                                 lockType: LockType, mode: LockMode, reAllocation: Option<bool>)
    requires isLocationKey(targetBK)
    ensures var r1, r2 := ChangeState(isLocationKey, t, targetBK, lockType, mode),
                          ChangeState(isLocationKey, t.(groups := groups), targetBK, lockType, mode);
            r2 == if r1.Success? then Success(r1.value.(groups := groups)) else r1
    ensures var r1, r2 := Lock(isLocationKey, t, targetBK, reAllocation),
                          Lock(isLocationKey, t.(groups := groups), targetBK, reAllocation);
            r2 == if r1.Success? then Success(r1.value.(groups := groups)) else r1
    ensures var r1, r2 := Release(isLocationKey, t, targetBK),
                          Release(isLocationKey, t.(groups := groups), targetBK);
            r2 == if r1.Success? then Success(r1.value.(groups := groups)) else r1
  {
  }
}

=== FILE: transport_unit.dfy ===
/**
 * TransportUnits and their parent/child tree. The object graph is an arena:
 * units are addressed by their barcode (unique in the store), a unit names its
 * parent by barcode and holds the barcodes of its children.
 */
module TransportUnits {
  import opened Wrappers

  type Barcode = string

  /** The states a unit can be in; only the initial one matters here. */
  datatype TransportUnitState = AVAILABLE | OtherState(name: string)

  /** An error recorded against a unit. */
  datatype UnitError = UnitError(text: string)

  datatype TransportUnit = TransportUnit(
    barcode: Option<Barcode>,
    state: TransportUnitState,
    parent: Option<Barcode>,
    children: set<Barcode>,
    errors: map<int, UnitError>)   // keyed by the time of recording, in milliseconds

  datatype UnitFailure = IllegalArgument(message: string)

  const CHILD_IS_NULL: string := "Child transportUnit is null!"
  const NOT_ASSOCIATED: string := "Child transportUnit not associated with this instance"
  const ERROR_IS_NULL: string := "Error may not be null!"

  /* ------------------------------ one unit ------------------------------ */

  /** A unit created from its identifier: available, alone, without errors. */
  function NewTransportUnit(unitId: Barcode): (u: TransportUnit)
    ensures u.barcode == Some(unitId)
    ensures u.state == AVAILABLE
    ensures u.parent == None && u.children == {} && u.errors == map[]
  {
    TransportUnit(Some(unitId), AVAILABLE, None, {}, map[])
  }

  /** getNoTransportUnits: how many units this one carries. */
  function NoTransportUnits(u: TransportUnit): (n: nat)
    ensures n == 0 <==> u.children == {}
  {
    |u.children|
  }

  /**
   * equals: two units are equal when their barcodes are equal, both absent
   * counting as equal; nothing is equal to null.
   */
  function UnitEquals(u: TransportUnit, other: Option<TransportUnit>): (r: bool)
    ensures r <==> other.Some? && other.value.barcode == u.barcode
  {
    if other.None? then false
    else if u.barcode.None? then other.value.barcode.None?
    else u.barcode == other.value.barcode
  }

  lemma UnitEqualsIsEquivalence(u: TransportUnit, v: TransportUnit, w: TransportUnit)
    ensures UnitEquals(u, Some(u))
    ensures UnitEquals(u, Some(v)) <==> UnitEquals(v, Some(u))
    ensures UnitEquals(u, Some(v)) && UnitEquals(v, Some(w)) ==> UnitEquals(u, Some(w))
  {
  }

  /** State, tree links and errors play no part in equality. */
  lemma UnitEqualsIgnoresContents(u: TransportUnit, s: TransportUnitState, p: Option<Barcode>,
                                  cs: set<Barcode>, es: map<int, UnitError>)
    ensures UnitEquals(u, Some(TransportUnit(u.barcode, s, p, cs, es)))
  {
  }

  /**
   * addError: a null error is refused; otherwise the error is recorded at
   * the current time and whatever was recorded at that same instant before
   * is handed back.
   */
  function AddError(u: TransportUnit, now: int, error: Option<UnitError>): (r: Result<(TransportUnit, Option<UnitError>), UnitFailure>)
    ensures error.None? <==> r == Failure(IllegalArgument(ERROR_IS_NULL))
    ensures r.Success? ==> r.value.0 == u.(errors := r.value.0.errors)
    ensures r.Success? ==> now in r.value.0.errors && r.value.0.errors[now] == error.value
    ensures r.Success? ==> forall t :: t in u.errors && t != now ==> t in r.value.0.errors && r.value.0.errors[t] == u.errors[t]
    ensures r.Success? ==> r.value.0.errors.Keys == u.errors.Keys + {now}
    ensures r.Success? ==> (r.value.1.Some? <==> now in u.errors)
    ensures r.Success? && r.value.1.Some? ==> r.value.1.value == u.errors[now]
  {
    if error.None? then Failure(IllegalArgument(ERROR_IS_NULL))
    else
      var previous := if now in u.errors then Some(u.errors[now]) else None;
      Success((u.(errors := u.errors[now := error.value]), previous))
  }

  /** Two errors recorded within the same millisecond: only the second is kept. */
  lemma SameInstantErrorsOverwrite(u: TransportUnit, now: int, e1: UnitError, e2: UnitError)
    ensures AddError(u, now, Some(e1)).Success?
    ensures AddError(AddError(u, now, Some(e1)).value.0, now, Some(e2)).Success?
    ensures AddError(AddError(u, now, Some(e1)).value.0, now, Some(e2)).value
         == (AddError(u, now, Some(e2)).value.0, Some(e1))
  {
    var u1 := AddError(u, now, Some(e1)).value.0;
    assert u1.errors[now := e2] == u.errors[now := e2];
  }

  /* ------------------------------ the arena ------------------------------ */

  type Units = map<Barcode, TransportUnit>

  /** Every unit carries the barcode it is stored under, and every link stays in the arena. */
  predicate WellFormed(a: Units) {
    forall k :: k in a ==>
      && a[k].barcode == Some(k)
      && (a[k].parent.Some? ==> a[k].parent.value in a)
      && a[k].children <= a.Keys
  }

  /** The two ends of the parent/child relation agree. */
  predicate Consistent(a: Units) {
    forall p, c :: p in a && c in a ==> (c in a[p].children <==> a[c].parent == Some(p))
  }

  /** In a well-formed arena, barcode equality of stored units is identity. */
  lemma EqualsIsIdentity(a: Units, k: Barcode, m: Barcode)
    requires WellFormed(a) && k in a && m in a
    ensures UnitEquals(a[k], Some(a[m])) <==> k == m
  {
  }

  /** Only the tree links of a unit are touched by the tree operations. */
  predicate SameUnit(u: TransportUnit, v: TransportUnit) {
    u.barcode == v.barcode && u.state == v.state && u.errors == v.errors
  }

  /** The former parent's children without `removed`; no change when there is no former parent. */
  function Detach(a: Units, former: Option<Barcode>, removed: Barcode): Units
    requires former.Some? ==> former.value in a
  {
    if former.Some? then a[former.value := a[former.value].(children := a[former.value].children - {removed})] else a
  }

  /** `child` takes `p` as its parent and `p` lists it. */
  function Adopt(detached: Units, p: Barcode, child: Barcode): Units
    requires p in detached && child in detached
  {
    var adopted := detached[child := detached[child].(parent := Some(p))];
    adopted[p := adopted[p].(children := adopted[p].children + {child})]
  }

  /** The re-parenting step of addChild; `removed` is what the former parent's set loses. */
  function Relink(a: Units, p: Barcode, child: Barcode, removed: Barcode): Units
    requires WellFormed(a) && p in a && child in a
  {
    Adopt(Detach(a, a[child].parent, removed), p, child)
  }

  lemma DetachAt(a: Units, former: Option<Barcode>, removed: Barcode, k: Barcode)
    requires (former.Some? ==> former.value in a) && k in a
    ensures Detach(a, former, removed).Keys == a.Keys
    ensures SameUnit(a[k], Detach(a, former, removed)[k])
    ensures Detach(a, former, removed)[k].parent == a[k].parent
    ensures Detach(a, former, removed)[k].children == if Some(k) == former then a[k].children - {removed} else a[k].children
  {
  }

  lemma AdoptAt(detached: Units, p: Barcode, child: Barcode, k: Barcode)
    requires p in detached && child in detached && k in detached
    ensures Adopt(detached, p, child).Keys == detached.Keys
    ensures SameUnit(detached[k], Adopt(detached, p, child)[k])
    ensures Adopt(detached, p, child)[k].parent == if k == child then Some(p) else detached[k].parent
    ensures Adopt(detached, p, child)[k].children == detached[k].children + (if k == p then {child} else {})
  {
  }

  /** Relink unit by unit. */
  lemma RelinkAt(a: Units, p: Barcode, child: Barcode, removed: Barcode, k: Barcode)
    requires WellFormed(a) && p in a && child in a && k in a
    ensures Relink(a, p, child, removed).Keys == a.Keys
    ensures SameUnit(a[k], Relink(a, p, child, removed)[k])
    ensures Relink(a, p, child, removed)[k].parent == if k == child then Some(p) else a[k].parent
    ensures Relink(a, p, child, removed)[k].children ==
              (if Some(k) == a[child].parent then a[k].children - {removed} else a[k].children)
              + (if k == p then {child} else {})
    ensures k != p && k != child && Some(k) != a[child].parent ==> Relink(a, p, child, removed)[k] == a[k]
  {
    var detached := Detach(a, a[child].parent, removed);
    DetachAt(a, a[child].parent, removed, k);
    DetachAt(a, a[child].parent, removed, p);
    DetachAt(a, a[child].parent, removed, child);
    AdoptAt(detached, p, child, k);
  }

  /**
   * addChild as the class does it: when the child moves from another parent,
   * that parent's children lose `this` (the new parent), not the child.
   * Apart from that, the child takes the new parent, the new parent lists it,
   * and every other unit is left alone.
   */
  function AddChildAsWritten(a: Units, p: Barcode, c: Option<Barcode>): (r: Result<Units, UnitFailure>)
    requires WellFormed(a) && p in a && (c.Some? ==> c.value in a)
    ensures c.None? <==> r == Failure(IllegalArgument(CHILD_IS_NULL))
    ensures c.Some? ==> r.Success?
    ensures r.Success? ==> r.value.Keys == a.Keys
    ensures r.Success? ==> r.value[c.value].parent == Some(p)
    ensures r.Success? && a[c.value].parent == Some(p) ==> r.value == a
    ensures r.Success? && a[c.value].parent != Some(p) ==>
              && r.value[p].children == a[p].children + {c.value}
              && (a[c.value].parent.Some? ==>
                    var f := a[c.value].parent.value;
                    r.value[f].children == a[f].children - {p})
              && Relinked(a, r.value, p, c.value, p)
  {
    if c.None? then Failure(IllegalArgument(CHILD_IS_NULL))
    else
      var child := c.value;
      var former := a[child].parent;
      if former.Some? && UnitEquals(a[former.value], Some(a[p])) then
        EqualsIsIdentity(a, former.value, p);
        Success(a)
      else
        RelinkIsRelinked(a, p, child, p);
        Success(Relink(a, p, child, p))
  }

  /** Units P and Q with C a child of P: a consistent arena. */
  function ExampleUnits(): (a: Units)
    ensures WellFormed(a) && Consistent(a)
  {
    var a := map["P" := TransportUnit(Some("P"), AVAILABLE, None, {"C"}, map[]),
                 "Q" := TransportUnit(Some("Q"), AVAILABLE, None, {}, map[]),
                 "C" := TransportUnit(Some("C"), AVAILABLE, Some("P"), {}, map[])];
    ExampleIsTree(a);
    a
  }

  lemma ExampleIsTree(a: Units)
    requires a == map["P" := TransportUnit(Some("P"), AVAILABLE, None, {"C"}, map[]),
                      "Q" := TransportUnit(Some("Q"), AVAILABLE, None, {}, map[]),
                      "C" := TransportUnit(Some("C"), AVAILABLE, Some("P"), {}, map[])]
    ensures WellFormed(a) && Consistent(a)
  {
    assert a.Keys == {"P", "Q", "C"};
    assert a["P"].children == {"C"} && a["Q"].children == {} && a["C"].children == {};
    assert a["P"].parent == None && a["Q"].parent == None && a["C"].parent == Some("P");
  }

  /** Moving C from P to Q as written leaves C listed under P although its parent is Q. */
  lemma AddChildAsWrittenLeavesStaleChild()
    ensures AddChildAsWritten(ExampleUnits(), "Q", Some("C")).Success?
    ensures var b := AddChildAsWritten(ExampleUnits(), "Q", Some("C")).value;
            "C" in b["P"].children && b["C"].parent == Some("Q") && !Consistent(b)
  {
    var a := ExampleUnits();
    assert a["C"].parent == Some("P");
    assert !UnitEquals(a["P"], Some(a["Q"]));
    var b := AddChildAsWritten(a, "Q", Some("C")).value;
    RelinkAt(a, "Q", "C", "Q", "P");
    RelinkAt(a, "Q", "C", "Q", "C");
    assert b["P"].children == {"C"};
    assert b["C"].parent == Some("Q");
  }

  /** `b` is `a` relinked, described unit by unit. */
  ghost predicate Relinked(a: Units, b: Units, p: Barcode, child: Barcode, removed: Barcode)
    requires child in a
  {
    && b.Keys == a.Keys
    && forall k :: k in a ==>
         && SameUnit(a[k], b[k])
         && b[k].parent == (if k == child then Some(p) else a[k].parent)
         && b[k].children == (if Some(k) == a[child].parent then a[k].children - {removed} else a[k].children)
                             + (if k == p then {child} else {})
  }

  lemma RelinkIsRelinked(a: Units, p: Barcode, child: Barcode, removed: Barcode)
    requires WellFormed(a) && p in a && child in a
    ensures Relinked(a, Relink(a, p, child, removed), p, child, removed)
  {
    forall k | k in a
      ensures SameUnit(a[k], Relink(a, p, child, removed)[k])
      ensures Relink(a, p, child, removed)[k].parent == (if k == child then Some(p) else a[k].parent)
      ensures Relink(a, p, child, removed)[k].children ==
                (if Some(k) == a[child].parent then a[k].children - {removed} else a[k].children)
                + (if k == p then {child} else {})
    {
      RelinkAt(a, p, child, removed, k);
    }
    RelinkAt(a, p, child, removed, child);
  }

  lemma RelinkedWellFormed(a: Units, b: Units, p: Barcode, child: Barcode)
    requires WellFormed(a) && p in a && child in a && Relinked(a, b, p, child, child)
    ensures WellFormed(b)
  {
    forall k | k in b
      ensures b[k].barcode == Some(k)
      ensures b[k].parent.Some? ==> b[k].parent.value in b
      ensures b[k].children <= b.Keys
    {
      assert SameUnit(a[k], b[k]);
    }
  }

  /** One pair of units after relinking: the two ends of their link still agree. */
  lemma RelinkedLinkAt(a: Units, b: Units, p: Barcode, child: Barcode, q: Barcode, d: Barcode)
    requires Consistent(a) && p in a && child in a && a[child].parent != Some(p)
    requires Relinked(a, b, p, child, child) && q in a && d in a
    ensures d in b[q].children <==> b[d].parent == Some(q)
  {
    assert d in a[q].children <==> a[d].parent == Some(q);
    if d == child {
      assert d in b[q].children <==> q == p;
    }
  }

  lemma RelinkedConsistent(a: Units, b: Units, p: Barcode, child: Barcode)
    requires WellFormed(a) && Consistent(a) && p in a && child in a && a[child].parent != Some(p)
    requires Relinked(a, b, p, child, child)
    ensures Consistent(b)
  {
    forall q, d | q in b && d in b
      ensures d in b[q].children <==> b[d].parent == Some(q)
    {
      RelinkedLinkAt(a, b, p, child, q, d);
    }
  }

  /** Re-parenting that takes the child, not the new parent, out of the former parent's set. */
  lemma RelinkKeepsTree(a: Units, p: Barcode, child: Barcode)
    requires WellFormed(a) && p in a && child in a && a[child].parent != Some(p)
    ensures WellFormed(Relink(a, p, child, child))
    ensures Consistent(a) ==> Consistent(Relink(a, p, child, child))
  {
    var b := Relink(a, p, child, child);
    RelinkIsRelinked(a, p, child, child);
    RelinkedWellFormed(a, b, p, child);
    if Consistent(a) {
      RelinkedConsistent(a, b, p, child);
    }
  }

  /**
   * addChild with the former parent letting go of the child: the child hangs
   * under `p`, and a consistent tree stays consistent. A child already under
   * `p` leaves everything as it was.
   */
  function AddChild(a: Units, p: Barcode, c: Option<Barcode>): (r: Result<Units, UnitFailure>)
    requires WellFormed(a) && p in a && (c.Some? ==> c.value in a)
    ensures c.None? <==> r == Failure(IllegalArgument(CHILD_IS_NULL))
    ensures c.Some? ==> r.Success?
    ensures r.Success? ==> WellFormed(r.value) && r.value.Keys == a.Keys
    ensures r.Success? ==> r.value[c.value].parent == Some(p)
    ensures r.Success? && Consistent(a) ==> c.value in r.value[p].children && Consistent(r.value)
    ensures r.Success? && a[c.value].parent == Some(p) ==> r.value == a
    ensures r.Success? ==> forall k :: k in a ==> SameUnit(a[k], r.value[k])
    ensures r.Success? ==> forall k :: k in a && k != p && k != c.value && Some(k) != a[c.value].parent ==> r.value[k] == a[k]
    ensures r.Success? && a[c.value].parent.Some? && a[c.value].parent.value != p ==>
              r.value[a[c.value].parent.value].children == a[a[c.value].parent.value].children - {c.value}
    ensures r.Success? && a[c.value].parent != Some(p) ==> Relinked(a, r.value, p, c.value, c.value)
  {
    if c.None? then Failure(IllegalArgument(CHILD_IS_NULL))
    else
      var child := c.value;
      var former := a[child].parent;
      if former.Some? && UnitEquals(a[former.value], Some(a[p])) then Success(a)
      else
        RelinkKeepsTree(a, p, child);
        RelinkIsRelinked(a, p, child, child);
        assert forall k :: k in a ==>
                 (SameUnit(a[k], Relink(a, p, child, child)[k])
                  && (k != p && k != child && Some(k) != former ==> Relink(a, p, child, child)[k] == a[k])) by {
          forall k | k in a
            ensures SameUnit(a[k], Relink(a, p, child, child)[k])
            ensures k != p && k != child && Some(k) != former ==> Relink(a, p, child, child)[k] == a[k]
          {
            RelinkAt(a, p, child, child, k);
          }
        }
        RelinkAt(a, p, child, child, child);
        RelinkAt(a, p, child, child, p);
        if former.Some? then RelinkAt(a, p, child, child, former.value); Success(Relink(a, p, child, child))
        else Success(Relink(a, p, child, child))
  }

  /** The unlinking step of removeChild. */
  function Orphan(a: Units, p: Barcode, child: Barcode): Units
    requires p in a && child in a
  {
    var orphaned := a[child := a[child].(parent := None)];
    orphaned[p := orphaned[p].(children := orphaned[p].children - {child})]
  }

  /** Orphan unit by unit. */
  lemma OrphanAt(a: Units, p: Barcode, child: Barcode, k: Barcode)
    requires p in a && child in a && k in a
    ensures Orphan(a, p, child).Keys == a.Keys
    ensures SameUnit(a[k], Orphan(a, p, child)[k])
    ensures Orphan(a, p, child)[k].parent == if k == child then None else a[k].parent
    ensures Orphan(a, p, child)[k].children == if k == p then a[k].children - {child} else a[k].children
  {
  }

  /** `b` is `a` with `child` taken from under `p`, described unit by unit. */
  ghost predicate Orphaned(a: Units, b: Units, p: Barcode, child: Barcode) {
    && b.Keys == a.Keys
    && forall k :: k in a ==>
         && SameUnit(a[k], b[k])
         && b[k].parent == (if k == child then None else a[k].parent)
         && b[k].children == (if k == p then a[k].children - {child} else a[k].children)
  }

  lemma OrphanIsOrphaned(a: Units, p: Barcode, child: Barcode)
    requires p in a && child in a
    ensures Orphaned(a, Orphan(a, p, child), p, child)
  {
    forall k | k in a
      ensures SameUnit(a[k], Orphan(a, p, child)[k])
      ensures Orphan(a, p, child)[k].parent == (if k == child then None else a[k].parent)
      ensures Orphan(a, p, child)[k].children == (if k == p then a[k].children - {child} else a[k].children)
    {
      OrphanAt(a, p, child, k);
    }
    OrphanAt(a, p, child, child);
  }

  lemma OrphanKeepsTree(a: Units, p: Barcode, child: Barcode)
    requires WellFormed(a) && p in a && child in a && a[child].parent == Some(p)
    ensures WellFormed(Orphan(a, p, child))
    ensures Consistent(a) ==> Consistent(Orphan(a, p, child))
  {
    var b := Orphan(a, p, child);
    forall k | k in a
      ensures b[k].barcode == Some(k)
      ensures b[k].parent.Some? ==> b[k].parent.value in b
      ensures b[k].children <= b.Keys
    {
      OrphanAt(a, p, child, k);
    }
    if Consistent(a) {
      forall q, d | q in b && d in b
        ensures d in b[q].children <==> b[d].parent == Some(q)
      {
        OrphanAt(a, p, child, q);
        OrphanAt(a, p, child, d);
      }
    }
  }

  /**
   * removeChild: only a child of `p` can be removed; it loses its parent and
   * leaves `p`'s children. Anything else is refused with no change.
   */
  function RemoveChild(a: Units, p: Barcode, c: Option<Barcode>): (r: Result<Units, UnitFailure>)
    requires WellFormed(a) && p in a && (c.Some? ==> c.value in a)
    ensures c.None? <==> r == Failure(IllegalArgument(CHILD_IS_NULL))
    ensures c.Some? ==> (r.Success? <==> a[c.value].parent == Some(p))
    ensures c.Some? && r.Failure? ==> r.error == IllegalArgument(NOT_ASSOCIATED)
    ensures r.Success? ==> WellFormed(r.value) && r.value.Keys == a.Keys
    ensures r.Success? ==> r.value[c.value].parent == None && r.value[p].children == a[p].children - {c.value}
    ensures r.Success? && Consistent(a) ==> Consistent(r.value)
    ensures r.Success? ==> forall k :: k in a ==> SameUnit(a[k], r.value[k])
    ensures r.Success? ==> forall k :: k in a && k != p && k != c.value ==> r.value[k] == a[k]
    ensures r.Success? ==> Orphaned(a, r.value, p, c.value)
  {
    if c.None? then Failure(IllegalArgument(CHILD_IS_NULL))
    else
      var child := c.value;
      var cu := a[child];
      if cu.parent.Some? && UnitEquals(a[cu.parent.value], Some(a[p])) then
        OrphanKeepsTree(a, p, child);
        assert forall k :: k in a ==>
                 (SameUnit(a[k], Orphan(a, p, child)[k]) && (k != p && k != child ==> Orphan(a, p, child)[k] == a[k])) by {
          forall k | k in a
            ensures SameUnit(a[k], Orphan(a, p, child)[k])
            ensures k != p && k != child ==> Orphan(a, p, child)[k] == a[k]
          {
            OrphanAt(a, p, child, k);
          }
        }
        OrphanAt(a, p, child, child);
        OrphanAt(a, p, child, p);
        OrphanIsOrphaned(a, p, child);
        Success(Orphan(a, p, child))
      else Failure(IllegalArgument(NOT_ASSOCIATED))
  }

  /** Orphaning a unit that was just relinked from no parent undoes the relink. */
  lemma OrphanUndoesRelink(a: Units, p: Barcode, c: Barcode)
    requires WellFormed(a) && Consistent(a) && p in a && c in a && a[c].parent == None
    ensures Relink(a, p, c, c).Keys == a.Keys
    ensures Orphan(Relink(a, p, c, c), p, c) == a
  {
    var b := Relink(a, p, c, c);
    var r := Orphan(b, p, c);
    assert c !in a[p].children;
    RelinkAt(a, p, c, c, p);
    forall k | k in a
      ensures r[k] == a[k]
    {
      RelinkAt(a, p, c, c, k);
      OrphanAt(b, p, c, k);
    }
    OrphanAt(b, p, c, p);
    assert r.Keys == a.Keys;
  }

  /** Adding a loose unit and removing it again gives back the arena and the count. */
  lemma AddThenRemoveRestores(a: Units, p: Barcode, c: Barcode)
    requires WellFormed(a) && Consistent(a) && p in a && c in a && a[c].parent == None
    ensures AddChild(a, p, Some(c)).Success?
    ensures NoTransportUnits(AddChild(a, p, Some(c)).value[p]) == NoTransportUnits(a[p]) + 1
    ensures RemoveChild(AddChild(a, p, Some(c)).value, p, Some(c)) == Success(a)
  {
    var b := Relink(a, p, c, c);
    assert AddChild(a, p, Some(c)) == Success(b);
    assert c !in a[p].children;
    RelinkAt(a, p, c, c, p);
    RelinkAt(a, p, c, c, c);
    assert b[p].children == a[p].children + {c};
    OrphanUndoesRelink(a, p, c);
    assert RemoveChild(b, p, Some(c)) == Success(Orphan(b, p, c));
  }

  /** A unit that is a child of `p` is refused by every other parent's removeChild. */
  lemma RemoveFromWrongParentFails(a: Units, p: Barcode, q: Barcode, c: Barcode)
    requires WellFormed(a) && p in a && q in a && c in a
    requires a[c].parent == Some(p) && q != p
    ensures RemoveChild(a, q, Some(c)) == Failure(IllegalArgument(NOT_ASSOCIATED))
  {
  }
}

=== FILE: unit_user_type.dfy ===
/**
 * The persistence converter for measured quantities: a Piece or a Weight is
 * stored in two columns, a tag `unitType@className` and the magnitude.
 * The JDBC statement and result set are reduced to the two column values.
 */
module UnitUserType {
  import opened Wrappers
  import opened Strings

  /** The canonical class names written into the tag. */
  const PIECE_CLASS: string := "org.openwms.common.units.Piece"
  const WEIGHT_CLASS: string := "org.openwms.common.units.Weight"
  const TAG_SEPARATOR: char := '@'

  /**
   * A value handed to the converter: one of the two supported measures, or an
   * object of any other class, known by its canonical name (getCanonicalName,
   * nested classes joined by '.') and its binary name (getName, nested classes
   * joined by '$'). The two coincide for a top-level class.
   */
  datatype Measure =
    | Piece(amount: real, unitType: string)
    | Weight(amount: real, unitType: string)
    | Foreign(canonicalName: string, binaryName: string)

  /** The constant names of the PieceUnit and WeightUnit enumerations. */
  datatype UnitCatalog = UnitCatalog(pieceUnits: set<string>, weightUnits: set<string>)

  /** The two columns; None is SQL NULL. The magnitude column holds the decimal value. */
  datatype Columns = Columns(tag: Option<string>, amount: Option<real>)

  datatype ConverterFailure =
    | TypeMismatch(message: string)        // TypeMismatchException
    | ArrayIndexOutOfBounds(index: nat)         // the split tag has no such part
    | ConversionFailure(value: real)       // getInt on a value that is not an integer
    | NoSuchConstant(name: string)         // Enum.valueOf
    | NullAmount                           // a Weight read from a NULL magnitude
    | NullComponent                        // getClass on null
    | Unsupported(message: string)         // UnsupportedOperationException

  const IMMUTABLE: string := "Unit types are immutable"

  predicate IsSupported(m: Measure) {
    m.Piece? || m.Weight?
  }

  /** The class name of a measure as the tag spells it. */
  function ClassName(m: Measure): string {
    match m
    case Piece(_, _) => PIECE_CLASS
    case Weight(_, _) => WEIGHT_CLASS
    case Foreign(cls, _) => cls
  }

  /* ------------------------------- writing ------------------------------- */

  /**
   * nullSafeSet: null clears both columns; a Piece or a Weight writes its tag
   * and its magnitude; anything else is refused.
   */
  function NullSafeSet(value: Option<Measure>): (r: Result<Columns, ConverterFailure>)
    ensures value.None? ==> r == Success(Columns(None, None))
    ensures value.Some? ==> (r.Success? <==> IsSupported(value.value))
    ensures value.Some? && !IsSupported(value.value) ==>
              r == Failure(TypeMismatch("Incompatible type: [" + value.value.canonicalName + "]"))
    ensures value.Some? && r.Success? ==>
              && r.value.tag == Some(value.value.unitType + [TAG_SEPARATOR] + ClassName(value.value))
              && r.value.amount == Some(value.value.amount)
  {
    if value.None? then Success(Columns(None, None))
    else
      match value.value
      case Piece(amount, unitType) => Success(Columns(Some(unitType + "@" + PIECE_CLASS), Some(amount)))
      case Weight(amount, unitType) => Success(Columns(Some(unitType + "@" + WEIGHT_CLASS), Some(amount)))
      case Foreign(cls, _) => Failure(TypeMismatch("Incompatible type: [" + cls + "]"))
  }

  /* ------------------------------- reading ------------------------------- */

  predicate IsIntegral(x: real) {
    x.Floor as real == x
  }

  /** The range of a Java int. */
  const INT_MIN: int := -0x8000_0000
  const INT_MAX: int := 0x7FFF_FFFF

  /** A value a Java int can hold exactly. */
  predicate IsJavaInt(x: real) {
    IsIntegral(x) && INT_MIN as real <= x <= INT_MAX as real
  }

  /** ResultSet.getInt: SQL NULL reads as 0; a value with a fraction, or one
      outside the range of a Java int, does not convert. */
  function GetInt(column: Option<real>): (r: Result<int, ConverterFailure>)
    ensures column.None? ==> r == Success(0)
    ensures column.Some? ==> (r.Success? <==> IsJavaInt(column.value))
    ensures column.Some? && r.Failure? ==> r.error == ConversionFailure(column.value)
    ensures r.Success? ==> INT_MIN <= r.value <= INT_MAX
    ensures column.Some? && r.Success? ==> r.value as real == column.value
  {
    if column.None? then Success(0)
    else if IsJavaInt(column.value) then Success(column.value.Floor)
    else Failure(ConversionFailure(column.value))
  }

  /** The tag of a row split at '@', trailing empty segments dropped. */
  function TagParts(row: Columns): seq<string>
    requires row.tag.Some?
  {
    JavaSplit(row.tag.value, TAG_SEPARATOR)
  }

  /**
   * nullSafeGet: a NULL tag reads as null. Otherwise the tag is split at '@'
   * into unit name and class name, and the class name picks the measure; the
   * unit name must name a constant of that measure's unit enumeration. A Piece
   * reads its magnitude with getInt first, so a fractional magnitude fails
   * before the unit name is looked up; a Weight looks up the unit name first
   * and then refuses a NULL magnitude.
   */
  function NullSafeGet(catalog: UnitCatalog, row: Columns): (r: Result<Option<Measure>, ConverterFailure>)
    ensures row.tag.None? <==> r == Success(None)
    ensures r.Success? <==>
              row.tag.None? ||
              (|TagParts(row)| >= 2 &&
                ((TagParts(row)[1] == PIECE_CLASS && GetInt(row.amount).Success?
                  && TagParts(row)[0] in catalog.pieceUnits) ||
                 (TagParts(row)[1] == WEIGHT_CLASS && TagParts(row)[0] in catalog.weightUnits
                  && row.amount.Some?)))
    ensures r.Success? && r.value.Some? ==>
              && IsSupported(r.value.value)
              && |TagParts(row)| >= 2
              && TagParts(row)[0] == r.value.value.unitType
              && TagParts(row)[1] == ClassName(r.value.value)
    ensures r.Success? && r.value.Some? && r.value.value.Piece? ==>
              && r.value.value.unitType in catalog.pieceUnits
              && GetInt(row.amount).Success?
              && r.value.value.amount == GetInt(row.amount).value as real
    ensures r.Success? && r.value.Some? && r.value.value.Weight? ==>
              r.value.value.unitType in catalog.weightUnits && row.amount == Some(r.value.value.amount)
    ensures row.tag.Some? && |TagParts(row)| < 2 ==>
              r == Failure(ArrayIndexOutOfBounds(|TagParts(row)|))
    ensures row.tag.Some? && |TagParts(row)| >= 2 && TagParts(row)[1] == PIECE_CLASS ==>
              && (GetInt(row.amount).Failure? ==> r == Failure(GetInt(row.amount).error))
              && (GetInt(row.amount).Success? && TagParts(row)[0] !in catalog.pieceUnits ==>
                    r == Failure(NoSuchConstant(TagParts(row)[0])))
    ensures row.tag.Some? && |TagParts(row)| >= 2 && TagParts(row)[1] == WEIGHT_CLASS ==>
              && (TagParts(row)[0] !in catalog.weightUnits ==> r == Failure(NoSuchConstant(TagParts(row)[0])))
              && (TagParts(row)[0] in catalog.weightUnits && row.amount.None? ==> r == Failure(NullAmount))
    ensures row.tag.Some? && |TagParts(row)| >= 2
              && TagParts(row)[1] != PIECE_CLASS
              && TagParts(row)[1] != WEIGHT_CLASS ==>
              r == Failure(TypeMismatch("Incompatible type: [" + TagParts(row)[1] + "]"))
  {
    if row.tag.None? then Success(None)
    else
      var parts := JavaSplit(row.tag.value, TAG_SEPARATOR);
      if |parts| < 2 then Failure(ArrayIndexOutOfBounds(|parts|))
      else
        var unitType := parts[0];
        var unitTypeClass := parts[1];
        if unitTypeClass == PIECE_CLASS then
          match GetInt(row.amount)
          case Failure(e) => Failure(e)
          case Success(amount) =>
            if unitType !in catalog.pieceUnits then Failure(NoSuchConstant(unitType))
            else Success(Some(Piece(amount as real, unitType)))
        else if unitTypeClass == WEIGHT_CLASS then
          if unitType !in catalog.weightUnits then Failure(NoSuchConstant(unitType))
          else if row.amount.None? then Failure(NullAmount)
          else Success(Some(Weight(row.amount.value, unitType)))
        else Failure(TypeMismatch("Incompatible type: [" + unitTypeClass + "]"))
  }

  /* ----------------------------- round trips ----------------------------- */

  lemma NoSeparatorInClassNames()
    ensures TAG_SEPARATOR !in PIECE_CLASS && TAG_SEPARATOR !in WEIGHT_CLASS
    ensures PIECE_CLASS != WEIGHT_CLASS
  {
    assert PIECE_CLASS[25] != WEIGHT_CLASS[25];
  }

  /** The tag splits back into the unit name and the class name. */
  lemma SplitTag(unitType: string, cls: string)
    requires TAG_SEPARATOR !in unitType && TAG_SEPARATOR !in cls && cls != []
    ensures JavaSplit(unitType + [TAG_SEPARATOR] + cls, TAG_SEPARATOR) == [unitType, cls]
  {
    var s := unitType + [TAG_SEPARATOR] + cls;
    assert s[|unitType|] == TAG_SEPARATOR;
    SplitCons(unitType, TAG_SEPARATOR, cls);
    assert Split(s, TAG_SEPARATOR) == [unitType, cls];
  }

  /** What a measure needs to come back unchanged from its two columns. */
  predicate Storable(catalog: UnitCatalog, m: Measure) {
    match m
    case Piece(amount, unitType) => TAG_SEPARATOR !in unitType && unitType in catalog.pieceUnits && IsJavaInt(amount)
    case Weight(_, unitType) => TAG_SEPARATOR !in unitType && unitType in catalog.weightUnits
    case Foreign(_, _) => false
  }

  /** Reading what was written gives back the measure, and null gives back null. */
  lemma RoundTrip(catalog: UnitCatalog, m: Option<Measure>)
    requires m.Some? ==> Storable(catalog, m.value)
    ensures NullSafeSet(m).Success?
    ensures NullSafeGet(catalog, NullSafeSet(m).value) == Success(m)
  {
    if m.Some? {
      NoSeparatorInClassNames();
      SplitTag(m.value.unitType, ClassName(m.value));
      if m.value.Piece? {
        assert GetInt(Some(m.value.amount)) == Success(m.value.amount.Floor);
      }
    }
  }

  /** A Piece with a fractional magnitude is written but cannot be read back. */
  lemma FractionalPieceDoesNotRoundTrip(catalog: UnitCatalog, amount: real, unitType: string)
    requires TAG_SEPARATOR !in unitType && unitType in catalog.pieceUnits && !IsIntegral(amount)
    ensures NullSafeSet(Some(Piece(amount, unitType))).Success?
    ensures NullSafeGet(catalog, NullSafeSet(Some(Piece(amount, unitType))).value) == Failure(ConversionFailure(amount))
  {
    NoSeparatorInClassNames();
    SplitTag(unitType, PIECE_CLASS);
  }

  /** A whole Piece amount beyond the range of a Java int is written but cannot be read back. */
  lemma OutOfRangePieceDoesNotRoundTrip(catalog: UnitCatalog, amount: real, unitType: string)
    requires TAG_SEPARATOR !in unitType && unitType in catalog.pieceUnits
    requires IsIntegral(amount) && (amount < INT_MIN as real || amount > INT_MAX as real)
    ensures NullSafeSet(Some(Piece(amount, unitType))).Success?
    ensures NullSafeGet(catalog, NullSafeSet(Some(Piece(amount, unitType))).value) == Failure(ConversionFailure(amount))
  {
    NoSeparatorInClassNames();
    SplitTag(unitType, PIECE_CLASS);
  }

  /** Three thousand million pieces: integral, but more than a Java int holds. */
  lemma LargePieceExample(catalog: UnitCatalog)
    requires "PC" in catalog.pieceUnits
    ensures NullSafeGet(catalog, NullSafeSet(Some(Piece(3000000000.0, "PC"))).value)
         == Failure(ConversionFailure(3000000000.0))
  {
    assert 3000000000.0.Floor as real == 3000000000.0;
    OutOfRangePieceDoesNotRoundTrip(catalog, 3000000000.0, "PC");
  }

  /** Two separators give three segments. */
  lemma SplitTwoSeparators(head: string, tail: string, cls: string)
    requires TAG_SEPARATOR !in head && TAG_SEPARATOR !in tail && TAG_SEPARATOR !in cls && cls != []
    ensures JavaSplit(head + [TAG_SEPARATOR] + tail + [TAG_SEPARATOR] + cls, TAG_SEPARATOR) == [head, tail, cls]
  {
    var rest := tail + [TAG_SEPARATOR] + cls;
    var tag := head + [TAG_SEPARATOR] + rest;
    assert head + [TAG_SEPARATOR] + tail + [TAG_SEPARATOR] + cls == tag;
    SplitCons(head, TAG_SEPARATOR, rest);
    SplitCons(tail, TAG_SEPARATOR, cls);
    assert Split(tag, TAG_SEPARATOR) == [head, tail, cls];
    assert tag[|head|] == TAG_SEPARATOR;
  }

  /**
   * A unit name holding '@' is cut at the separator: the piece after it is
   * taken for the class name, and reading fails with a type mismatch on it.
   */
  lemma SeparatorInUnitNameBreaksTag(catalog: UnitCatalog, m: Measure, head: string, tail: string)
    requires IsSupported(m) && m.unitType == head + [TAG_SEPARATOR] + tail
    requires TAG_SEPARATOR !in head && TAG_SEPARATOR !in tail
    requires tail != PIECE_CLASS && tail != WEIGHT_CLASS
    ensures NullSafeSet(Some(m)).Success?
    ensures NullSafeGet(catalog, NullSafeSet(Some(m)).value) == Failure(TypeMismatch("Incompatible type: [" + tail + "]"))
  {
    NoSeparatorInClassNames();
    SplitTwoSeparators(head, tail, ClassName(m));
  }

  /** A tag naming another class is refused on reading as on writing. */
  lemma ForeignTagRefused(catalog: UnitCatalog, unitType: string, cls: string, binaryName: string, amount: Option<real>)
    requires TAG_SEPARATOR !in unitType && TAG_SEPARATOR !in cls && cls != []
    requires cls != PIECE_CLASS && cls != WEIGHT_CLASS
    ensures NullSafeGet(catalog, Columns(Some(unitType + [TAG_SEPARATOR] + cls), amount))
         == Failure(TypeMismatch("Incompatible type: [" + cls + "]"))
    ensures NullSafeSet(Some(Foreign(cls, binaryName))) == Failure(TypeMismatch("Incompatible type: [" + cls + "]"))
  {
    SplitTag(unitType, cls);
  }

  /* ------------------------------ properties ------------------------------ */

  datatype PropertyValue = UnitName(name: string) | Magnitude(amount: real)

  /** getPropertyValue: property 0 is the unit name, every other index the magnitude.
      A foreign object is named as Class.toString prints it: "class " and the binary name. */
  function GetPropertyValue(component: Option<Measure>, property: int): (r: Result<PropertyValue, ConverterFailure>)
    ensures component.None? ==> r == Failure(NullComponent)
    ensures component.Some? ==> (r.Success? <==> IsSupported(component.value))
    ensures component.Some? && !IsSupported(component.value) ==>
              r == Failure(TypeMismatch("Incompatible type [class " + component.value.binaryName + "]"))
    ensures r.Success? && property == 0 ==> r.value == UnitName(component.value.unitType)
    ensures r.Success? && property != 0 ==> r.value == Magnitude(component.value.amount)
  {
    if component.None? then Failure(NullComponent)
    else
      match component.value
      case Piece(amount, unitType) => Success(if property == 0 then UnitName(unitType) else Magnitude(amount))
      case Weight(amount, unitType) => Success(if property == 0 then UnitName(unitType) else Magnitude(amount))
      case Foreign(_, name) => Failure(TypeMismatch("Incompatible type [class " + name + "]"))
  }

  /** The two columns written are the two property values: the tag starts with property 0, the magnitude is property 1. */
  lemma ColumnsAreProperties(m: Measure)
    requires IsSupported(m)
    ensures NullSafeSet(Some(m)).Success? && GetPropertyValue(Some(m), 0).Success? && GetPropertyValue(Some(m), 1).Success?
    ensures NullSafeSet(Some(m)).value.tag.value
         == GetPropertyValue(Some(m), 0).value.name + [TAG_SEPARATOR] + ClassName(m)
    ensures NullSafeSet(Some(m)).value.amount == Some(GetPropertyValue(Some(m), 1).value.amount)
  {
  }

  /** setPropertyValue: the measures are immutable, so every write is refused. */
  function SetPropertyValue(component: Option<Measure>, property: int, value: Option<PropertyValue>): (r: Result<Measure, ConverterFailure>)
    ensures r.Failure? && r.error == Unsupported(IMMUTABLE)
  {
    Failure(Unsupported(IMMUTABLE))
  }

  /**
   * equals(x, y): identical values are equal, null equals nothing else, and
   * otherwise the measures' own equality decides.
   */
  function Equals(measureEquals: (Measure, Measure) -> bool, x: Option<Measure>, y: Option<Measure>): (r: bool)
    ensures x == y ==> r
    ensures x.None? || y.None? ==> (r <==> x == y)
    ensures x.Some? && y.Some? && x != y ==> (r <==> measureEquals(x.value, y.value))
  {
    if x == y then true
    else if x.None? || y.None? then false
    else measureEquals(x.value, y.value)
  }

  /** If the measures' equality is an equivalence, so is the converter's. */
  lemma EqualsIsEquivalence(measureEquals: (Measure, Measure) -> bool, x: Option<Measure>, y: Option<Measure>, z: Option<Measure>)
    requires forall m :: measureEquals(m, m)
    requires forall m, n :: measureEquals(m, n) ==> measureEquals(n, m)
    requires forall m, n, o :: measureEquals(m, n) && measureEquals(n, o) ==> measureEquals(m, o)
    ensures Equals(measureEquals, x, x)
    ensures Equals(measureEquals, x, y) ==> Equals(measureEquals, y, x)
    ensures Equals(measureEquals, x, y) && Equals(measureEquals, y, z) ==> Equals(measureEquals, x, z)
    ensures x.Some? && y.Some? ==> (Equals(measureEquals, x, y) <==> measureEquals(x.value, y.value))
  {
  }
}

=== FILE: wrappers.dfy ===
/** Option and Result: the model's stand-ins for Java's null / Optional and for thrown exceptions. */
module Wrappers {

  /** None stands for a Java null or an empty Optional. */
  datatype Option<+T> = None | Some(value: T)

  /** Failure stands for an exception thrown by the modelled Java method. */
  datatype Result<+R, +E> = Success(value: R) | Failure(error: E)
}
